=== FILE: README.md ===
# MindAid diagnosis questionnaire, in Dafny

MindAid is a FastAPI web application. It diagnoses mental-health conditions and offers AI counseling.

This project models two parts of it:

- **The diagnosis conversation.**
  - A user tells a three-part story.
  - A classifier labels the story as Anxiety, Depression, Addiction or PTSD.
  - A questionnaire for that disorder follows:
    - Anxiety: seven GAD-7 items, each answered 0–3.
    - Depression: nine PHQ-9 items, each answered 0–3.
    - Addiction: ten items, each answered 0–3.
    - PTSD: a trauma gate, then five yes/no items.
  - A fixed table turns the summed score into a severity label, which is written to the user's row.
- **The conversation history.** A counseling exchange is recorded in a text column, and the history page cleans that column up for display. `get_response` overwrites the column with every message of the counseling model's message store; the `counsel_chat` endpoint appends one "User: … | AI: …" entry to it.

The source holds the diagnosis twice:

- `get_response` in `src/mindaid/main.py` is a session-counter state machine, served at `/get`. It is modelled in `Questionnaire`, and its multi-step behaviour in `QuestionnaireRuns`.
- `diagnosis_chat` and `handle_questionnaire_response` in `src/mindaid/diagnosis.py` are a step-indexed variant that walks question lists. They are modelled in `StepDiagnosis`. The application does not serve them: main.py:91-92 leave the `diagnosis.py` and `counseling.py` routers unmounted, so `diagnosis_chat` and `counsel_chat` are reachable only if those lines are restored.

The model compares the two variants and finds that the second one stops one answer early (see Findings).

Modules:

- `Py` models the Python built-ins the code relies on:
  - `str.lower` on ASCII;
  - `startswith`/`endswith`;
  - slicing with negative and clamped bounds;
  - list indexing with negative indices, where an `IndexError` is `None`;
  - `int()` on a string, where a `ValueError` is `None`.
- `Domain` holds the disorder and severity labels and the database writes (`SetDisorder`, `SetSeverity`, `SetHistory`). It also holds the "guest" fallback for users who are not signed in.
- `Scales` holds the questionnaire sizes and the four threshold tables. It also holds an independent "one band per cut-off reached" reading of the tables.
- `History` covers the history append of `counsel_chat`, the message-store join of `get_response`, the counseling session id and the display cleanup.
- `Questionnaire` models one message of `get_response` as a pure function. A message maps (session, message, world) to (session, reply, optional write). It also models the page handlers that reset a session.
- `QuestionnaireRuns` holds the reachable-state invariant and runs of many messages.
- `StepDiagnosis` models the step-indexed handler of `diagnosis.py`. `Revision` selects between its guards as written and as corrected.

Several things become parameters:

- The world outside the code becomes the `World` value: the classifier (`string -> Disorder`), the counseling model's reply and the messages the model's store already held for the user's counseling session.
- Database updates are returned as `Write` events rather than performed.
- The long HTML replies of `get_response` are represented by `Reply` constructors. The question texts are kept word for word.

## Model

| member | source | states |
|---|---|---|
| Py.Lower | src/mindaid/main.py:287 | `msg.lower()` keeps the length, lowers each ASCII capital, and leaves no capital behind |
| Py.LowerEqualsWord | src/mindaid/main.py:295 | a lower-cased message equals a lower-case word exactly when it spells that word ignoring case |
| Py.Slice | src/mindaid/counseling.py:104-106 | a Python slice with negative or out-of-range bounds: clamped, and empty when the bounds cross |
| Py.Index | src/mindaid/diagnosis.py:153 | `xs[i]` is defined exactly for `-len(xs) <= i < len(xs)`, and negative indices count from the end |
| Py.ParseInt | src/mindaid/diagnosis.py:139 | `int(s)` succeeds only on text that holds a digit |
| Py.ParseShow | src/mindaid/diagnosis.py:139 | `int(str(n)) == n` for every integer, so `int()` reads back every decimal numeral |
| Py.ParseSingleDigit | src/mindaid/diagnosis.py:139 | `int()` of one ASCII digit is that digit's value |
| Domain.Username | src/mindaid/counseling.py:43-46 | the user name, or "guest" when no one is signed in |
| Domain.SeverityNamesDistinct | src/mindaid/main.py:200-211 | different severity labels are different strings in the database |
| Scales.TableIsBanded | src/mindaid/main.py:200-211 | for every score ≥ 0, each threshold table gives the label of the band the score falls in, counting the cut-offs reached |
| Scales.TableMonotone | src/mindaid/main.py:262-276 | a higher non-negative score never gets a milder label, in any of the four tables |
| Scales.TableCoversBands | src/mindaid/main.py:415-426 | over 0..maximum score each table takes every label of its scale and no other |
| Scales.ReachedMonotone | src/mindaid/main.py:357-362 | a higher score reaches at least as many cut-offs |
| Scales.AnxietyTable | src/mindaid/main.py:200-211 | Minimal exactly for 0–4, Mild for 5–9, Moderate for 10–14, and Severe for 15 or more and for a negative score, which falls through every band |
| Scales.DepressionTable | src/mindaid/main.py:262-276 | Minimal 0–4, Mild 5–9, Moderate 10–14, Moderately Severe 15–19, and Severe for 20 or more or a negative score |
| Scales.AddictionTable | src/mindaid/main.py:415-426 | Mild 0–6, Moderate 7–15, Mildly Severe 16–24, and Severe for 25 or more or a negative score |
| Scales.PtsdTable | src/mindaid/main.py:357-362 | Mild exactly for 0–2, Moderate/Severe for 3 or more or a negative score |
| History.Current | src/mindaid/counseling.py:62 | a missing row or NULL/empty column reads as "" |
| History.Entry | src/mindaid/counseling.py:65 | an exchange is recorded as "User: ", then the user input at positions 6.., then " \| AI: " and the reply at the end, and nothing else |
| History.Append | src/mindaid/counseling.py:59-66 | appending to an empty history gives just the new entry; otherwise the old history is a prefix, " \| " + entry is a suffix, and nothing else is added |
| History.SessionId | src/mindaid/counseling.py:49 | the requested session id when it is non-empty, otherwise "counsel_" + user name |
| History.CounselChat | src/mindaid/counseling.py:41-80 | the reply carries the model's answer and the session id of `SessionId`; the history write is exactly the new entry when the stored history is empty, otherwise the stored history, " \| " and the new entry |
| History.ReplayJoins | src/mindaid/counseling.py:59-66 | starting from an empty history, any run of `counsel_chat` turns leaves exactly their entries joined by " \| ", oldest first |
| History.AppendExtendsJoin | src/mindaid/counseling.py:62-66 | appending one turn to the join of earlier entries gives the join with the new entry last |
| History.JoinSnoc | src/mindaid/counseling.py:66 | joining one more entry appends " \| " and the entry |
| History.StoreHistory | src/mindaid/main.py:450-456 | the history `get_response` writes is the store's earlier messages, then the message, then the answer, joined by " \| "; with no earlier messages it is just "message \| answer" |
| History.StoreHistoryContinues | src/mindaid/main.py:450-456 | the next counseling turn writes the previous write followed by " \| message \| answer" |
| History.Cleanup | src/mindaid/counseling.py:100-106 | the `('…',)` wrapper is tried first and stripped, then the `'…'` quotes; a string with neither complete pair of markers is unchanged; the result is never longer |
| History.Display | src/mindaid/main.py:649-658 | an empty or missing history shows the placeholder; any other history shows exactly its cleanup |
| History.CleanupUnwrapsTuple | src/mindaid/counseling.py:103-104 | `Cleanup("('" + x + "',)") == x` for every x |
| History.CleanupUnquotes | src/mindaid/counseling.py:105-106 | `Cleanup("'" + x + "'") == x` for every x |
| History.DisplayOfWrittenHistory | src/mindaid/counseling.py:100-108 | a history written by `counsel_chat`'s append (empty before, or its own "User: …" entries) is shown exactly as written |
| History.DisplayUnquotesStoreHistory | src/mindaid/main.py:649-658 | a history `get_response` wrote is not always shown as written: a first message starting with a quote and an answer ending with one lose both quotes on the history page |
| History.CleanupOverlappingMarkers | src/mindaid/main.py:653-656 | where the markers overlap ("(',)", "'", "''") the slice is empty, as in Python |
| Questionnaire.Items | src/mindaid/main.py:154-406 | each questionnaire scores exactly its scale's number of items (7, 9, 10 and 5), held in the order get_response asks them |
| Questionnaire.ItemsDistinct | src/mindaid/main.py:154-406 | no item of a questionnaire repeats another, so no question is asked twice in one run |
| Questionnaire.QuestionText | src/mindaid/main.py:125-406 | a question reply shows one of its questionnaire's listed items, and the two narrative prompts are different questions |
| Questionnaire.LastStep | src/mindaid/main.py:192-194 | the completing step is the first item's step plus the item count minus one |
| Questionnaire.LikertValue | src/mindaid/main.py:167 | an accepted answer's value is its position in ["0","1","2","3"] |
| Questionnaire.LikertValueIsInt | src/mindaid/main.py:169 | for every accepted answer, the score added is what `int(msg)` returns |
| Questionnaire.TokensAreCaseInsensitive | src/mindaid/main.py:287-296 | `msg.lower()` is in the yes list exactly when it equals "yes", and in the no list exactly when it equals "no"; the mixed-case tokens in the lists can never match |
| Questionnaire.LikertTurn | src/mindaid/main.py:166-218 | an invalid answer re-prompts with no change; a valid one before the last item adds its value, moves one step on, asks the next item (item `total - 3`) and writes nothing; at the last step it sets -1; the severity is written exactly on that last answer, from the final score; outside the questionnaire's steps nothing changes |
| Questionnaire.PtsdTurn | src/mindaid/main.py:285-367 | at the gate "no" gives step 15 and writes Minimal, "yes" gives step 5 and asks the first item, and anything else re-prompts; each item adds 1 per yes and 0 per no, and before the fifth item asks the next one (item `total - 4`) without writing; step 9 finishes with the PTSD table's label |
| Questionnaire.LikertAsksListedQuestion | src/mindaid/main.py:166-191 | a Likert turn asks a question exactly after a valid answer before the last step, and after the answer at step `total` the question shown is the scale's item `total - 3`, the list holding the questions in the order main.py returns them |
| Questionnaire.PtsdAsksListedQuestion | src/mindaid/main.py:295-330 | a PTSD turn asks a question exactly after "yes" at the gate or a yes/no answer at steps 5–8, and after the answer at step `total` the question shown is the PTSD item `total - 4` |
| Questionnaire.DiagnosisTurn | src/mindaid/main.py:122-163 | steps 1 and 2 append the message and advance; step 3 appends, classifies the whole text, writes the disorder and moves to 4 |
| Questionnaire.CounselTurn | src/mindaid/main.py:440-473 | the session is untouched, the reply is the model's answer, and the history is overwritten with exactly the join of the store's earlier messages, then the message, then the answer, separated by " \| "; with no earlier messages it is just "message \| answer" |
| Questionnaire.Step | src/mindaid/main.py:113-476 | a message never changes the mode flags; a fresh session only gets the "visit a page" reply; re-prompts and closing replies change nothing; a finished diagnosis stays finished; a severity is written exactly when the run becomes terminal; the score grows by 0..3; the step advances by one or becomes terminal |
| Questionnaire.GetResponse | src/mindaid/main.py:103-113 | an unknown user gets a fresh entry; a known user's entry takes one `Step` with the message; only that user's entry changes, and it holds the new session |
| Questionnaire.OpenDiagnosis | src/mindaid/main.py:586-596 | a signed-in user's entry is reset to diagnosis step 1 with score 0, text " " and no class; other entries are kept; a visitor who is not signed in changes nothing |
| Questionnaire.OpenCounsel | src/mindaid/main.py:609-619 | the same for counseling: mode counseling, step 0 and everything cleared |
| QuestionnaireRuns.StartsAreReachable | src/mindaid/main.py:104-111 | the fresh entry and both page resets satisfy the invariant |
| QuestionnaireRuns.StepPreservesInv | src/mindaid/main.py:163-437 | a message keeps the step in its disorder's range, the score within 0..3 per answered item (0..1 for PTSD), and the class present past step 3 |
| QuestionnaireRuns.FinishedIsAbsorbing | src/mindaid/main.py:437 | from a reachable finished diagnosis (step -1 or 15) every message gets "Thank you…" and changes nothing |
| QuestionnaireRuns.SeverityFromReachableScore | src/mindaid/main.py:200-211 | a severity is only written for a classified disorder, and it is that disorder's table applied to a score inside its scale |
| QuestionnaireRuns.Run | src/mindaid/main.py:113-437 | a run of messages keeps the invariant and the mode flags, raises the score by at most 3 per message, and writes at most once per message |
| QuestionnaireRuns.RunAppend | src/mindaid/main.py:113-437 | running two batches of messages in turn is the same as running them together |
| QuestionnaireRuns.RefusalIsInvisible | src/mindaid/main.py:217-218 | a refused answer leaves no trace: the rest of the run is as if it was never sent |
| QuestionnaireRuns.LikertItemStep | src/mindaid/main.py:166-215 | one valid Likert answer at a pending item adds exactly its value; before the last item it moves one step on and writes nothing, at the last it sets -1 and writes the table's label for the new score |
| QuestionnaireRuns.PtsdItemStep | src/mindaid/main.py:301-362 | one yes/no answer at a PTSD item adds 1 for yes and 0 for no; before the fifth item it moves one step on and writes nothing, at the fifth it sets -1 and writes the PTSD label |
| QuestionnaireRuns.SumBounds | src/mindaid/main.py:167-169 | the Likert answers sum to between 0 and 3 per answer |
| QuestionnaireRuns.LikertRun | src/mindaid/main.py:166-218 | from any step of a Likert questionnaire, valid answers add exactly their sum; the run finishes, writing the table's label for the final score, exactly when the last step is answered |
| QuestionnaireRuns.PtsdRun | src/mindaid/main.py:301-362 | the same for PTSD items: one point per yes, finishing at step 9 with the PTSD table's label |
| QuestionnaireRuns.NarrativeRun | src/mindaid/main.py:122-140 | three messages from the reset page give step 4, the text " m1 m2 m3", its class, and exactly one disorder write |
| QuestionnaireRuns.CompleteLikertDiagnosis | src/mindaid/main.py:122-283 | a story then one valid answer per item ends at -1 with the sum as score and writes exactly the disorder and then the table's severity |
| QuestionnaireRuns.CompletePtsdDiagnosis | src/mindaid/main.py:285-362 | a PTSD story, "yes" at the gate and five yes/no answers end at -1 with the yes count as score and write the disorder and then the PTSD label |
| QuestionnaireRuns.NoTraumaDiagnosis | src/mindaid/main.py:286-292 | a PTSD story and "no" at the gate end at 15 and write the disorder and then Minimal |
| StepDiagnosis.CalculateAnxietySeverity | src/mindaid/diagnosis.py:230-239 | Minimal exactly for scores up to 4, negative ones included, Mild for 5–9, Moderate for 10–14, Severe for 15 or more |
| StepDiagnosis.PtsdSeverity | src/mindaid/diagnosis.py:213-219 | Moderate/Severe exactly for 3 points or more, Mild for anything less |
| StepDiagnosis.AnxietyTablesAgree | src/mindaid/diagnosis.py:230-239 | `calculate_anxiety_severity` agrees with get_response's Anxiety table on every score ≥ 0; below zero the two disagree (Minimal against Severe) |
| StepDiagnosis.CalculateAnxietySeverityMonotone | src/mindaid/diagnosis.py:230-239 | a higher score never gets a milder label |
| StepDiagnosis.PtsdTablesAgree | src/mindaid/diagnosis.py:213 | the step-indexed PTSD rule agrees with get_response's PTSD table on every score ≥ 0 |
| StepDiagnosis.AnxietyAnswer | src/mindaid/diagnosis.py:138-176 | a non-integer answer raises before anything changes; a continuing answer adds its value and advances the step even if the lookup then fails; the final answer sets step -1 and writes the severity of the final score, without storing that score |
| StepDiagnosis.PtsdAnswer | src/mindaid/diagnosis.py:178-222 | at step 4, "no"/"n" finish with Minimal and anything else moves to step 5; later, one point exactly for "yes"/"y"; the last answer sets -1 and writes Mild or Moderate/Severe |
| StepDiagnosis.HandleQuestionnaire | src/mindaid/diagnosis.py:133-228 | every completed reply either finishes (step -1 with a severity write) or is the generic reply with nothing changed; every other reply advances the step by one without writing; other disorders get the generic reply |
| StepDiagnosis.Chat | src/mindaid/diagnosis.py:62-127 | steps 1–3 follow the request's step and append the input as in get_response; step 3 classifies, writes the disorder and moves to step 4; a step below 1 returns nothing; later steps go to the handler |
| StepDiagnosis.DiagnosisChat | src/mindaid/diagnosis.py:40-127 | the entry is filed under "diagnosis_" + user name and no other entry changes; a missing entry is created fresh for any request step (step 1 stores the input, step 2 " " + input at step 3, step 3 classifies " " + input, step 4 or later gets the generic completed reply, a step below 1 nothing); an existing entry is the session the request is applied to, by `Chat` at every request step, so from step 4 it goes to the handler |
| StepDiagnosis.DiagnosisPage | src/mindaid/diagnosis.py:21-38 | a signed-in user's entry is reset to a fresh one; a visitor who is not signed in changes nothing |
| StepDiagnosis.NarrativeReachesQuestionnaire | src/mindaid/diagnosis.py:62-96 | from a fresh entry, three requests reach step 4 with the joined text, its class and the disorder write |
| StepDiagnosis.QuestionsMatchMain | src/mindaid/diagnosis.py:140-204 | as transcribed into this model, the handler's Anxiety questions and its first PTSD questions are get_response's items word for word and in the same order; its last PTSD question is a shorter wording than get_response's fifth item |
| StepDiagnosis.AnxietyIndexInBounds | src/mindaid/diagnosis.py:149-155 | whenever the guard continues from step 4 or later, `questions[step - 4]` is a real position, under either guard, and that question is asked |
| StepDiagnosis.PtsdIndexInBounds | src/mindaid/diagnosis.py:206-212 | whenever the guard continues from step 5 or later, `questions[step - 5]` is a real position, and that question is asked |
| StepDiagnosis.PtsdReentryFails | src/mindaid/diagnosis.py:196-212 | after a finished PTSD run (step -1), the next answer looks up `questions[-6]` and raises after setting the step to 0 |
| StepDiagnosis.AnxietyReentryRestarts | src/mindaid/diagnosis.py:149-155 | after a finished Anxiety run, the next integer answer is added and `questions[-5]`, the second question, is asked again |
| StepDiagnosis.AnxietyAnswerParsed | src/mindaid/diagnosis.py:139-176 | an integer answer at a questionnaire step adds its value and advances, or at the last step finishes with the severity of the final score |
| StepDiagnosis.PtsdAnswerParsed | src/mindaid/diagnosis.py:196-222 | any answer at a PTSD item step advances with one point per "yes"/"y", or at the last step finishes with the PTSD label |
| StepDiagnosis.AnxietyLastStep | src/mindaid/diagnosis.py:149 | the completing Anxiety step: one before get_response's as written, the same once corrected |
| StepDiagnosis.PtsdLastStep | src/mindaid/diagnosis.py:206 | the completing PTSD step: one before get_response's as written, the same once corrected |
| StepDiagnosis.Feed | src/mindaid/diagnosis.py:133-228 | feeding answers one request at a time stops within the inputs; a stop at the first answer returns the handler's reply to it, a later stop means the first answer asked another question, and it stops before the last input only on a reply that is not a question |
| StepDiagnosis.FeedContinues | src/mindaid/diagnosis.py:133-228 | a first answer that asks another question passes the rest of the answers on from the session it reached, and the run ends with the same reply one position later; applied at each step, every answer before the stopping one asked another question and the final reply is the handler's answer in the session the earlier answers reached |
| StepDiagnosis.AnxietyFeedLength | src/mindaid/diagnosis.py:149-176 | integer answers from any Anxiety step complete the run exactly on the answer given at the completing step |
| StepDiagnosis.PtsdFeedLength | src/mindaid/diagnosis.py:206-222 | any answers from any PTSD item step complete the run exactly on the answer given at the completing step |
| StepDiagnosis.AnswersTaken | src/mindaid/diagnosis.py:149 | from the first item, the handler as written takes 6 Anxiety answers and 4 PTSD items; corrected, it takes 7 and 5, the sizes of get_response's questionnaires |
| StepDiagnosis.AsWrittenAnxietyStopsEarly | src/mindaid/diagnosis.py:149 | at step 9 the handler as written finishes on any Likert answer, while get_response moves on to its last item without writing |
| StepDiagnosis.AsWrittenPtsdStopsEarly | src/mindaid/diagnosis.py:206 | at step 8 the handler as written finishes on a yes/no answer, while get_response moves on to its fifth item without writing |
| StepDiagnosis.CorrectedAnxietyContinuesAsMain | src/mindaid/diagnosis.py:149-155 | with the corrected guard, an integer answer before the last step moves to the same step with the same score as get_response's Likert answer of that value |
| StepDiagnosis.CorrectedAnxietyFinishesAsMain | src/mindaid/diagnosis.py:157-176 | with the corrected guard, the answer at step 10 finishes like get_response's and writes the same severity |
| StepDiagnosis.CorrectedPtsdMatchesMain | src/mindaid/diagnosis.py:196-222 | with the corrected guard, a yes/no answer at any PTSD item step continues or finishes exactly as in get_response, with the same score and the same severity write |
| StepDiagnosis.MainLikertContinue | src/mindaid/main.py:166-191 | get_response's Likert answer before the last item moves exactly one step on and adds exactly the answer's value |
| StepDiagnosis.CorrectedAnxietyContinues | src/mindaid/diagnosis.py:149-155 | with the corrected guard, an integer answer before the last Anxiety step is not the end: the step moves one on and the score grows by the answer |
| StepDiagnosis.CorrectedAnxietyFinishes | src/mindaid/diagnosis.py:157-176 | with the corrected guard, the integer answer at the last Anxiety step completes the questionnaire and writes and returns the Anxiety table's label for the final score |
| StepDiagnosis.MainLikertFinish | src/mindaid/main.py:192-215 | get_response's last Likert answer writes the table's label for the final score |

## Left out

- Machine-learning inference and retrieval. The classifier becomes a function parameter, and the counseling model's answer becomes a string parameter.
- SQLite. Every `UPDATE` becomes a returned `Write` event, and a read becomes an `Option<string>` parameter.
- Authentication, cookies, templates, redirects and CORS. A signed-in user is an `Option<string>`.
- The shared, unsynchronised session dictionaries. Their behaviour under concurrent requests is not modelled.
- Failures of the classifier and the database are assumed away. In the source, `predict_disorder` raises when its model is not loaded (ml_models.py:126-127) after main.py:135-136 have already set the step to 4 and extended the text; the catch-all handler (main.py:478-480) then answers, but the session is left at step 4 with no class, and every later message gets "Thank you…" (main.py:163-164, 437). Such a session lies outside `QuestionnaireRuns.Inv`, so `QuestionnaireRuns.StepPreservesInv` and `QuestionnaireRuns.FinishedIsAbsorbing` hold only under this assumption. A failed database write is different. main.py:194, 256, 287, 348, 350 and 409 set the step to -1 or 15 before the write. If the write then fails, the session is finished with a score inside its scale and still satisfies `Inv`. What breaks is `Questionnaire.Step`'s promise that a severity is written exactly when the run becomes terminal: the run became terminal, but nothing was written.
- Questionnaire.CounselTurn: does not model the database fallback of main.py:457-463. A successful model call always creates the store entry for the session (ml_models.py:193-195, 207-209), so `session_id in store` holds at main.py:451 and the fallback is unreachable after it; a failed call raises before any write and is the catch-all's case above. The append the fallback would perform is `counsel_chat`'s, modelled as `History.Append`.
- The counseling page's date write (main.py:621-630). It reads the clock.
- The wording of the HTML verdicts, introductions and advice in `get_response`. These are `Reply` constructors; the item questions are kept as text.
- A classifier label outside the four disorders. `predict_disorder` only returns the four labels of ml_models.py:139, and the classifier's output type makes any other impossible. (With another label, get_response would reach main.py:437 and answer "Thank you…", while diagnosis.py:98-122 would return nothing.)
- Py.Lower: lowers ASCII only. Python's full Unicode case mapping matters only for equality with ASCII words, and the model does not claim more.
- Py.ParseInt: reads ASCII digits and ASCII whitespace only. Python also accepts other Unicode digits and spaces.
- The rest of diagnosis.py after line 239: `save_severity` (241-250) is the severity write that `StepDiagnosis` returns as a `Write`; the `diagnosis_router` alias and the `get_diagnosis_response` endpoint (432-456) are outside the modelled handlers; the remainder of those lines is commented out. The commented-out code in counseling.py (lines 110–208) is not part of the program.

## Findings

| source | as written | input that shows it | evidently intended | confidence | as-written member | corrected member |
|---|---|---|---|---|---|---|
| src/mindaid/diagnosis.py:149 | `if step - 3 < len(questions)` finishes the Anxiety questionnaire when the session is at step 9 | an Anxiety session at step 9 with answer "0": the handler answers `completed=True`, so six answers are scored and `questions[5]` ("Feeling afraid, as if something awful might happen") is never asked | `step - 4 < len(questions)`: seven answers, the GAD-7 scale that get_response asks | not executed | StepDiagnosis.AsWrittenAnxietyStopsEarly | StepDiagnosis.CorrectedAnxietyFinishesAsMain |
| src/mindaid/diagnosis.py:206 | `if step - 4 < len(questions)` finishes the PTSD items when the session is at step 8 | a PTSD session at step 8 with answer "yes": the handler answers `completed=True`, so four items are scored and `questions[3]` is never asked | `step - 5 < len(questions)`: five items, as get_response asks | not executed | StepDiagnosis.AsWrittenPtsdStopsEarly | StepDiagnosis.CorrectedPtsdMatchesMain |

In both rows, `StepDiagnosis.AnswersTaken` counts the answers each guard takes from the first item, for both revisions.

Two more behaviours of the step-indexed handler are modelled as written but not listed as findings:

- The handler reads the step from the session, not the request. So a request after a finished run re-enters through a negative list index. `StepDiagnosis.PtsdReentryFails` and `StepDiagnosis.AnxietyReentryRestarts` cover this.
- The final score is not stored when a run finishes.

The comparisons with get_response use the corrected guard.

=== FILE: domain.dfy ===
/** Values shared by both diagnosis handlers and the counseling handler: the
    classifier's labels, the severity labels written to the `users` table, the
    database updates a turn performs, and who the request comes from. */
module Domain {
  import opened Py

  /** The classifier's four labels, in the order of its output layer. */
  datatype Disorder = Addiction | Anxiety | Depression | PTSD

  function DisorderName(d: Disorder): string {
    match d
    case Addiction => "Addiction"
    case Anxiety => "Anxiety"
    case Depression => "Depression"
    case PTSD => "PTSD"
  }

  /** Every severity label any of the handlers writes. */
  datatype Severity =
    | Minimal
    | Mild
    | Moderate
    | ModeratelySevere   // Depression, 15..19
    | MildlySevere       // Addiction, 16..24
    | ModerateOrSevere   // PTSD, 3 or more
    | Severe

  function SeverityName(s: Severity): string {
    match s
    case Minimal => "Minimal"
    case Mild => "Mild"
    case Moderate => "Moderate"
    case ModeratelySevere => "Moderately Severe"
    case MildlySevere => "Mildly Severe"
    case ModerateOrSevere => "Moderate/Severe"
    case Severe => "Severe"
  }

  /** An `UPDATE users SET … WHERE username = ?` a turn performs. */
  datatype Write =
    | SetDisorder(disorder: Disorder)
    | SetSeverity(severity: Severity)
    | SetHistory(history: string)

  /** The name a request is filed under: the authenticated user, or "guest". */
  function Username(user: Option<string>): (name: string)
    ensures user.Some? ==> name == user.value
    ensures user.None? ==> name == "guest"
  {
    match user
    case Some(u) => u
    case None => "guest"
  }

  /** No two labels print alike (their lengths already differ), so the stored
      column identifies the label. */
  lemma SeverityNamesDistinct(a: Severity, b: Severity)
    ensures SeverityName(a) == SeverityName(b) <==> a == b
  {
    if a != b {
      var x, y := SeverityName(a), SeverityName(b);
      assert |x| != |y|;
    }
  }
}

=== FILE: history.dfy ===
/** The conversation-history column of the `users` table: how a counseling turn
    appends to it (`counsel_chat` in src/mindaid/counseling.py, repeated in the
    counseling branch of `get_response` in src/mindaid/main.py) and how the
    history page cleans it up for display (`history_page` in both files). */
module History {
  import opened Py
  import opened Domain

  const Separator := " | "

  const Placeholder := "No conversation history available."

  /** What `result[0] if result and result[0] else ""` reads from the row:
      `None` is a missing row or a NULL column. */
  function Current(stored: Option<string>): (h: string)
    ensures stored.None? ==> h == ""
    ensures stored.Some? ==> h == stored.value
  {
    match stored
    case Some(h) => h
    case None => ""
  }

  /** One exchange as the history records it. */
  function Entry(userInput: string, aiReply: string): (e: string)
    ensures StartsWith(e, "User: ")
    ensures |e| == |"User: "| + |userInput| + |" | AI: "| + |aiReply|
    ensures e[|"User: "|..|"User: "| + |userInput|] == userInput
    ensures EndsWith(e, " | AI: " + aiReply)
  {
    "User: " + userInput + " | AI: " + aiReply
  }

  /** The history written back after one counseling turn. */
  function Append(stored: Option<string>, userInput: string, aiReply: string): (h: string)
    ensures Current(stored) == "" ==> h == Entry(userInput, aiReply)
    ensures Current(stored) != "" ==>
              && StartsWith(h, Current(stored) + Separator)
              && EndsWith(h, Separator + Entry(userInput, aiReply))
              && |h| == |Current(stored)| + |Separator| + |Entry(userInput, aiReply)|
    ensures |h| > |Current(stored)|
  {
    var current := Current(stored);
    var entry := Entry(userInput, aiReply);
    if current != "" then current + Separator + entry else entry
  }

  /** The session id `counsel_chat` answers with: the requested one when it
      is not empty, otherwise one derived from the user. */
  function SessionId(requested: string, user: Option<string>): (id: string)
    ensures requested != "" ==> id == requested
    ensures requested == "" ==> StartsWith(id, "counsel_") && id[|"counsel_"|..] == Username(user)
  {
    if requested != "" then requested else "counsel_" + Username(user)
  }

  datatype CounselReply = CounselReply(message: string, sessionId: string)

  /** `counsel_chat`: the reply carries the model's answer verbatim, and the
      history gains exactly this exchange. */
  function CounselChat(user: Option<string>, userInput: string, requestedId: string,
                       aiReply: string, stored: Option<string>): (r: (CounselReply, Write))
    ensures r.0.message == aiReply
    ensures r.0.sessionId == SessionId(requestedId, user)
    ensures r.1.SetHistory? && EndsWith(r.1.history, Entry(userInput, aiReply))
    ensures r.1.SetHistory? && StartsWith(r.1.history, Current(stored))
    // exactly the new entry on an empty history, else the old one, " | " and the entry
    ensures Current(stored) == "" ==> r.1 == SetHistory(Entry(userInput, aiReply))
    ensures Current(stored) != "" ==> r.1 == SetHistory(Current(stored) + Separator + Entry(userInput, aiReply))
  {
    (CounselReply(aiReply, SessionId(requestedId, user)), SetHistory(Append(stored, userInput, aiReply)))
  }

  // ------------------------------------------------------- replaying turns

  /** The history after a run of counseling turns, starting from `stored`. */
  function Replay(stored: Option<string>, turns: seq<(string, string)>): string
    decreases |turns|
  {
    if |turns| == 0 then Current(stored)
    else Replay(Some(Append(stored, turns[0].0, turns[0].1)), turns[1..])
  }

  /** `" | ".join(parts)`. */
  function Join(parts: seq<string>): string
    decreases |parts|
  {
    if |parts| == 0 then ""
    else if |parts| == 1 then parts[0]
    else parts[0] + Separator + Join(parts[1..])
  }

  function Entries(turns: seq<(string, string)>): (es: seq<string>)
    ensures |es| == |turns|
    ensures forall i :: 0 <= i < |turns| ==> es[i] == Entry(turns[i].0, turns[i].1)
  {
    seq(|turns|, i requires 0 <= i < |turns| => Entry(turns[i].0, turns[i].1))
  }

  lemma {:induction false} JoinSnoc(parts: seq<string>, last: string)
    requires |parts| > 0
    ensures Join(parts + [last]) == Join(parts) + Separator + last
    decreases |parts|
  {
    if |parts| == 1 {
      assert (parts + [last])[1..] == [last];
    } else {
      assert (parts + [last])[1..] == parts[1..] + [last];
      JoinSnoc(parts[1..], last);
    }
  }

  lemma {:induction false} JoinNonEmpty(parts: seq<string>)
    requires |parts| > 0 && |parts[0]| > 0
    ensures Join(parts) != ""
  {
    assert |Join(parts)| >= |parts[0]|;
  }

  /** One turn appended to the join of some entries is the join with its
      entry at the end. */
  lemma AppendExtendsJoin(prefix: seq<(string, string)>, t: (string, string))
    ensures Append(Some(Join(Entries(prefix))), t.0, t.1) == Join(Entries(prefix + [t]))
  {
    var e := Entry(t.0, t.1);
    assert Entries(prefix + [t]) == Entries(prefix) + [e];
    if |prefix| == 0 {
      assert Entries(prefix) == [];
      assert Join(Entries(prefix + [t])) == e;
    } else {
      JoinNonEmpty(Entries(prefix));
      JoinSnoc(Entries(prefix), e);
    }
  }

  /** Turns appended to a history that is already the join of some entries
      extend that join entry by entry. */
  lemma {:induction false} ReplayFromEmpty(prefix: seq<(string, string)>, rest: seq<(string, string)>)
    ensures Replay(Some(Join(Entries(prefix))), rest) == Join(Entries(prefix + rest))
    decreases |rest|
  {
    if |rest| > 0 {
      var next := prefix + [rest[0]];
      AppendExtendsJoin(prefix, rest[0]);
      assert prefix + rest == next + rest[1..];
      ReplayFromEmpty(next, rest[1..]);
    } else {
      assert prefix + rest == prefix;
    }
  }

  /** From an empty history, a run of turns leaves exactly their entries
      joined by " | ", oldest first. */
  lemma ReplayJoins(turns: seq<(string, string)>)
    ensures Replay(None, turns) == Join(Entries(turns))
  {
    ReplayFromEmpty([], turns);
    assert [] + turns == turns;
    if |turns| > 0 {
      assert Replay(None, turns) == Replay(Some(Join(Entries([]))), turns);
    }
  }

  // -------------------------------------------------------- message store

  /** The history `get_response` writes on the counseling page: the model
      call has added the message and the answer to the messages the store
      already held for the session, and all of them are joined by " | ". */
  function StoreHistory(prior: seq<string>, msg: string, aiReply: string): (h: string)
    ensures |prior| == 0 ==> h == msg + Separator + aiReply
    ensures |prior| > 0 ==> h == Join(prior) + Separator + msg + Separator + aiReply
  {
    if |prior| > 0 then
      JoinSnoc(prior, msg);
      JoinSnoc(prior + [msg], aiReply);
      assert prior + [msg] + [aiReply] == prior + [msg, aiReply];
      Join(prior + [msg, aiReply])
    else
      assert [msg, aiReply][1..] == [aiReply];
      assert Join([aiReply]) == aiReply;
      Join([msg, aiReply])
  }

  /** A written store history is again a store history: the next turn
      continues the same join. */
  lemma StoreHistoryContinues(prior: seq<string>, m1: string, r1: string, m2: string, r2: string)
    ensures StoreHistory(prior + [m1, r1], m2, r2) == StoreHistory(prior, m1, r1) + Separator + m2 + Separator + r2
  {
    var next := prior + [m1, r1];
    if |prior| > 0 {
      JoinSnoc(prior, m1);
      JoinSnoc(prior + [m1], r1);
      assert prior + [m1] + [r1] == next;
    } else {
      assert next == [m1, r1];
      assert next[1..] == [r1];
      assert Join([r1]) == r1;
    }
  }

  // ------------------------------------------------------------- display

  /** Strips the `('…',)` wrapping of a stored one-tuple, or else the `'…'`
      quotes of a stored repr; anything else is shown as stored. */
  function Cleanup(h: string): (r: string)
    ensures |r| <= |h|
    ensures StartsWith(h, "('") && EndsWith(h, "',)") ==>
              r == (if |h| >= 5 then h[2..|h| - 3] else "")
    ensures !(StartsWith(h, "('") && EndsWith(h, "',)")) && StartsWith(h, "'") && EndsWith(h, "'") ==>
              r == (if |h| >= 2 then h[1..|h| - 1] else "")
    ensures !(StartsWith(h, "('") && EndsWith(h, "',)")) && !(StartsWith(h, "'") && EndsWith(h, "'")) ==> r == h
  {
    if StartsWith(h, "('") && EndsWith(h, "',)") then Slice(h, 2, -3)
    else if StartsWith(h, "'") && EndsWith(h, "'") then Slice(h, 1, -1)
    else h
  }

  /** The text the history page shows for a stored column. */
  function Display(stored: Option<string>): (shown: string)
    ensures Current(stored) == "" ==> shown == Placeholder
    ensures Current(stored) != "" ==> shown == Cleanup(Current(stored)) && |shown| <= |Current(stored)|
  {
    match stored
    case Some(h) => if h != "" then Cleanup(h) else Placeholder
    case None => Placeholder
  }

  /** Cleanup undoes the tuple wrapping a database driver may leave behind. */
  lemma CleanupUnwrapsTuple(x: string)
    ensures Cleanup("('" + x + "',)") == x
  {
    var h := "('" + x + "',)";
    assert StartsWith(h, "('") && EndsWith(h, "',)");
    assert h[2..|h| - 3] == x;
  }

  /** … and the quotes of a repr. */
  lemma CleanupUnquotes(x: string)
    ensures Cleanup("'" + x + "'") == x
  {
    var h := "'" + x + "'";
    assert h[..2][0] == '\'';
    assert !StartsWith(h, "('");
    assert StartsWith(h, "'") && EndsWith(h, "'");
    assert h[1..|h| - 1] == x;
  }

  /** A history `counsel_chat` wrote is displayed unchanged. */
  lemma DisplayOfWrittenHistory(stored: Option<string>, userInput: string, aiReply: string)
    requires Current(stored) == "" || StartsWith(Current(stored), "User: ")
    ensures Display(Some(Append(stored, userInput, aiReply))) == Append(stored, userInput, aiReply)
  {
    var h := Append(stored, userInput, aiReply);
    assert h[0] == 'U';
  }

  /** A history `get_response` wrote is not always shown as written: when the
      first message starts with a quote and the last answer ends with one,
      the page strips both. */
  lemma DisplayUnquotesStoreHistory(m: string, r: string)
    ensures Display(Some(StoreHistory([], "'" + m, r + "'"))) == m + Separator + r
    ensures Display(Some(StoreHistory([], "'" + m, r + "'"))) != StoreHistory([], "'" + m, r + "'")
  {
    var x := m + Separator + r;
    assert StoreHistory([], "'" + m, r + "'") == "'" + x + "'";
    CleanupUnquotes(x);
  }

  /** Where the markers overlap the slice is empty, as in Python. */
  lemma CleanupOverlappingMarkers()
    ensures Cleanup("(',)") == ""
    ensures Cleanup("'") == ""
    ensures Cleanup("''") == ""
  {
    assert StartsWith("(',)", "('") && EndsWith("(',)", "',)");
    assert !StartsWith("'", "('") && StartsWith("'", "'") && EndsWith("'", "'");
    assert "''"[..2] == "''";
    assert !StartsWith("''", "('") && StartsWith("''", "'") && EndsWith("''", "'");
  }
}

=== FILE: py.dfy ===
/** Python built-in behaviour the handlers rely on: `str.lower`, `str.startswith`,
    `str.endswith`, slicing and indexing with negative positions, and `int(str)`
    in base 10.  Only the ASCII part of Python's Unicode tables is modelled. */
module Py {

  datatype Option<+T> = None | Some(value: T)

  // ---------------------------------------------------------------- lower()

  function LowerChar(c: char): char {
    if 'A' <= c <= 'Z' then (c as int - 'A' as int + 'a' as int) as char else c
  }

  predicate HasUpper(s: string) {
    exists i :: 0 <= i < |s| && 'A' <= s[i] <= 'Z'
  }

  /** `s.lower()` restricted to ASCII letters. */
  function Lower(s: string): (r: string)
    ensures |r| == |s|
    ensures forall i :: 0 <= i < |s| ==> r[i] == LowerChar(s[i])
    ensures !HasUpper(r)
  {
    seq(|s|, i requires 0 <= i < |s| => LowerChar(s[i]))
  }

  /** The words a lower-cased string can equal are exactly those whose letters,
      read case-insensitively, spell the word. */
  lemma LowerEqualsWord(s: string, w: string)
    requires forall i :: 0 <= i < |w| ==> 'a' <= w[i] <= 'z'
    ensures Lower(s) == w <==>
            |s| == |w| && forall i :: 0 <= i < |s| ==> s[i] == w[i] || s[i] == (w[i] as int - 'a' as int + 'A' as int) as char
  {
    if |s| == |w| && forall i :: 0 <= i < |s| ==> s[i] == w[i] || s[i] == (w[i] as int - 'a' as int + 'A' as int) as char {
      forall i | 0 <= i < |s| ensures Lower(s)[i] == w[i] {
      }
    }
  }

  // ------------------------------------------------------ startswith / endswith

  predicate StartsWith(s: string, p: string) {
    |p| <= |s| && s[..|p|] == p
  }

  predicate EndsWith(s: string, p: string) {
    |p| <= |s| && s[|s| - |p|..] == p
  }

  // ------------------------------------------------ slicing and indexing

  /** Where a slice bound lands: negative bounds count from the end, and the
      result is clamped into `0..n`. */
  function SliceBound(i: int, n: nat): (b: nat)
    ensures b <= n
    ensures 0 <= i <= n ==> b == i
    ensures -(n as int) <= i < 0 ==> b == n + i
  {
    if i < 0 then (if i + n < 0 then 0 else i + n)
    else if i > n then n
    else i
  }

  /** `s[start:stop]`: never fails; empty once the bounds cross. */
  function Slice<T>(s: seq<T>, start: int, stop: int): (r: seq<T>)
    ensures |r| <= |s|
    ensures SliceBound(start, |s|) <= SliceBound(stop, |s|) ==>
              r == s[SliceBound(start, |s|)..SliceBound(stop, |s|)]
    ensures SliceBound(stop, |s|) <= SliceBound(start, |s|) ==> r == []
  {
    var a := SliceBound(start, |s|);
    var b := SliceBound(stop, |s|);
    if a < b then s[a..b] else []
  }

  /** `xs[i]`: defined for `-|xs| <= i < |xs|`; anything else is an IndexError. */
  function Index<T>(xs: seq<T>, i: int): (r: Option<T>)
    ensures r.Some? <==> -|xs| <= i < |xs|
    ensures 0 <= i < |xs| ==> r == Some(xs[i])
    ensures -|xs| <= i < 0 ==> r == Some(xs[|xs| + i])
  {
    if 0 <= i < |xs| then Some(xs[i])
    else if -|xs| <= i < 0 then Some(xs[|xs| + i])
    else None
  }

  // ------------------------------------------------------------------ int()

  /** The ASCII characters `str.isspace()` accepts. */
  predicate IsSpace(c: char) {
    c == ' ' || '\t' <= c <= '\r' || '\U{1C}' <= c <= '\U{1F}'
  }

  predicate IsDigit(c: char) {
    '0' <= c <= '9'
  }

  function DigitValue(c: char): (v: nat)
    requires IsDigit(c)
    ensures v <= 9
  {
    c as int - '0' as int
  }

  function DigitChar(v: nat): (c: char)
    requires v <= 9
    ensures IsDigit(c) && DigitValue(c) == v
  {
    (v + '0' as int) as char
  }

  function TrimStart(s: string): (r: string)
    ensures |r| <= |s| && r == s[|s| - |r|..]
    ensures |r| > 0 ==> !IsSpace(r[0])
    decreases |s|
  {
    if |s| > 0 && IsSpace(s[0]) then TrimStart(s[1..]) else s
  }

  function TrimEnd(s: string): (r: string)
    ensures |r| <= |s| && r == s[..|r|]
    ensures |r| > 0 ==> !IsSpace(r[|r| - 1])
    decreases |s|
  {
    if |s| > 0 && IsSpace(s[|s| - 1]) then TrimEnd(s[..|s| - 1]) else s
  }

  /** `s.strip()`. */
  function Strip(s: string): string {
    TrimEnd(TrimStart(s))
  }

  /** Base-10 digits as `int()` takes them: at least one digit, and every
      underscore sits between two digits. */
  predicate DigitGroups(t: string) {
    && |t| > 0
    && (forall i :: 0 <= i < |t| ==> IsDigit(t[i]) || t[i] == '_')
    && (forall i :: 0 <= i < |t| && t[i] == '_' ==>
          0 < i < |t| - 1 && IsDigit(t[i - 1]) && IsDigit(t[i + 1]))
  }

  /** The number the digits of `t` spell, underscores ignored. */
  function DigitsValue(t: string): nat
    requires forall i :: 0 <= i < |t| ==> IsDigit(t[i]) || t[i] == '_'
    decreases |t|
  {
    if |t| == 0 then 0
    else if t[|t| - 1] == '_' then DigitsValue(t[..|t| - 1])
    else DigitsValue(t[..|t| - 1]) * 10 + DigitValue(t[|t| - 1])
  }

  /** `int(s)`: `None` is the ValueError Python raises. */
  function ParseInt(s: string): (r: Option<int>)
    ensures r.Some? ==> exists i :: 0 <= i < |s| && IsDigit(s[i])
  {
    var t := Strip(s);
    if |t| > 0 && (t[0] == '+' || t[0] == '-') then
      if DigitGroups(t[1..]) then
        assert IsDigit(t[1..][0]);
        Some(if t[0] == '-' then -(DigitsValue(t[1..]) as int) else DigitsValue(t[1..]))
      else None
    else if DigitGroups(t) then
      assert IsDigit(t[0]);
      Some(DigitsValue(t))
    else None
  }

  /** `str(n)` for an integer. */
  function ShowNat(n: nat): (r: string)
    ensures |r| > 0
    ensures forall i :: 0 <= i < |r| ==> IsDigit(r[i])
  {
    if n < 10 then [DigitChar(n)] else ShowNat(n / 10) + [DigitChar(n % 10)]
  }

  function ShowInt(n: int): string {
    if n < 0 then "-" + ShowNat(-n) else ShowNat(n)
  }

  lemma {:induction false} ShowNatValue(n: nat)
    ensures DigitsValue(ShowNat(n)) == n
  {
    var r := ShowNat(n);
    if n >= 10 {
      assert r[..|r| - 1] == ShowNat(n / 10);
      ShowNatValue(n / 10);
    }
  }

  lemma StripDigits(t: string)
    requires |t| > 0 && !IsSpace(t[0]) && !IsSpace(t[|t| - 1])
    ensures Strip(t) == t
  {
  }

  /** `int(str(n)) == n` for every integer. */
  lemma ParseShow(n: int)
    ensures ParseInt(ShowInt(n)) == Some(n)
  {
    var s := ShowInt(n);
    StripDigits(s);
    ShowNatValue(if n < 0 then -n else n);
    if n < 0 {
      assert s[1..] == ShowNat(-n);
    }
  }

  /** A one-character answer parses to its digit, whatever the Likert scale. */
  lemma ParseSingleDigit(c: char)
    requires IsDigit(c)
    ensures ParseInt([c]) == Some(DigitValue(c))
  {
    var t := [c];
    StripDigits(t);
    assert t[..0] == [];
    assert DigitsValue(t) == DigitValue(c);
  }
}

=== FILE: questionnaire.dfy ===
/** The per-user session of `get_response` (src/mindaid/main.py) and the one
    transition each chat message drives: three narrative turns, one
    classification, then the questionnaire of the predicted disorder until a
    severity is written.  The classifier and the counseling model are
    parameters; database updates are returned, not performed. */
module Questionnaire {
  import opened Py
  import opened Domain
  import opened Scales
  import History

  /** One entry of `user_sessions`.  `total` is the step counter; -1 and 15
      mark a finished diagnosis. */
  datatype Session = Session(
    inDiagnosis: bool,
    inCounselor: bool,
    total: int,
    userScore: int,
    text: string,
    predicted: Option<Disorder>)

  /** The entry a user without one gets on the first message. */
  const Fresh := Session(false, false, 0, 0, "", None)

  /** What opening the diagnosis page writes over the entry. */
  const DiagnosisStart := Session(true, false, 1, 0, " ", None)

  /** What opening the counseling page writes over the entry. */
  const CounselStart := Session(false, true, 0, 0, "", None)

  /** The replies.  Item questions are kept verbatim; the long HTML messages
      that introduce a questionnaire or report a severity are named by what
      they say. */
  datatype Reply =
    | AskTrigger                               // the second narrative prompt
    | AskHistory                               // the third narrative prompt
    | AskItem(disorder: Disorder, item: nat)   // the next item of a questionnaire
    | Introduce(disorder: Disorder)            // "You have: …" and the first item
    | FormatReminder                           // "Please Provide Answers in Required Format !"
    | YesNoReminder                            // "Please Provide Answer in Required Format"
    | Verdict(disorder: Disorder, severity: Severity)
    | TraumaAdvice                             // PTSD gate answered "no"
    | ThankYou                                 // "Thank you for using our website. …"
    | VisitPage                                // "Please visit the diagnosis or counseling page …"
    | Counsel(text: string)                    // the counseling model's answer

  /** What a turn depends on besides the session and the message: the
      classifier, the counseling model's answer, and the messages the model's
      message store already held for the user's counseling session (none
      when it held no entry for it). */
  datatype World = World(classify: string -> Disorder, aiReply: string, storeMessages: seq<string>)

  datatype Outcome = Outcome(session: Session, reply: Reply, write: Option<Write>)

  predicate Diagnosing(s: Session) {
    s.inDiagnosis && !s.inCounselor
  }

  predicate Counseling(s: Session) {
    !s.inDiagnosis && s.inCounselor
  }

  /** The step counter values that end a diagnosis. */
  predicate Terminal(total: int) {
    total == -1 || total == 15
  }

  // ------------------------------------------------------------ questions

  const TriggerQuestion := "Can you share any recent events or experiences that might have triggered these feelings or symptoms?"

  const HistoryQuestion := "Have you experienced any significant traumas in the past, or do you have any habits or behaviors that you think might be affecting your mental health?"

  const Gad1 := "Feeling nervous, anxious, or on edge ?"
  const Gad2 := "Not being able to stop or control worrying"
  const Gad3 := "Worrying too much about different things"
  const Gad4 := "Trouble relaxing"
  const Gad5 := "Being so restless that it is hard to sit still"
  const Gad6 := "Becoming easily annoyed or irritable"
  const Gad7 := "Feeling afraid, as if something awful might happen"

  const Phq1 := "Little interest or pleasure in doing things ?"
  const Phq2 := "Feeling down, depressed, or hopeless"
  const Phq3 := "Trouble falling or staying asleep, or sleeping too much"
  const Phq4 := "Feeling tired or having little energy"
  const Phq5 := "Poor appetite or overeating"
  const Phq6 := "Feeling bad about yourself or that you are a failure or have let yourself or your family down"
  const Phq7 := "Trouble concentrating on things, such as reading the newspaper or watching television"
  const Phq8 := "Moving or speaking so slowly that other people could not have noticed. Or the opposite being so figety or restless that you have been moving around a lot more than usual"
  const Phq9 := "Thoughts that you would be better off dead, or of hurting yourself"

  const Use1 := "How often do you have strong urges or cravings to use the substance or engage in the behavior?"
  const Use2 := "How often do you find it difficult to control or stop using the substance or engaging in the behavior?"
  const Use3 := "How often do you need to use more of the substance or engage more in the behavior to achieve the same effect?"
  const Use4 := "How often do you experience physical or emotional withdrawal symptoms when you try to stop using the substance or engaging in the behavior?"
  const Use5 := "How often do you neglect your responsibilities at work, school, or home due to your use of the substance or engagement in the behavior?"
  const Use6 := "How often do you continue to use the substance or engage in the behavior despite knowing it causes problems in your life?"
  const Use7 := "How often do you spend a lot of time obtaining, using, or recovering from the substance or behavior?"
  const Use8 := "How often do you lose interest in other activities or hobbies because of your use of the substance or engagement in the behavior?"
  const Use9 := "How often do you continue to use the substance or engage in the behavior in situations where it is physically dangerous (e.g., driving, operating machinery)?"
  const Use10 := "How often do you feel guilty or ashamed about your use of the substance or engagement in the behavior?"

  const Pc1 := "Had nightmares about it or thought about it when you did not want to?"
  const Pc2 := "Tried hard not to think about it or went out of your way to avoid situations that reminded you of it?"
  const Pc3 := "Were constantly on guard, watchful or easily startled?"
  const Pc4 := "Felt numb or detached from others, activities, or your surroundings?"
  const Pc5 := "Felt guilty or unable to stop blaming yourself or others for the event or any problems the event may have caused"

  /** The scored items of each questionnaire, in the order they are asked.
      The first Likert item is asked inside the introduction; the PTSD items
      follow the trauma gate. */
  function Items(d: Disorder): (qs: seq<string>)
    ensures |qs| == ItemCount(d)
  {
    match d
    case Anxiety => [Gad1, Gad2, Gad3, Gad4, Gad5, Gad6, Gad7]
    case Depression => [Phq1, Phq2, Phq3, Phq4, Phq5, Phq6, Phq7, Phq8, Phq9]
    case Addiction => [Use1, Use2, Use3, Use4, Use5, Use6, Use7, Use8, Use9, Use10]
    case PTSD => [Pc1, Pc2, Pc3, Pc4, Pc5]
  }

  /** The step at which the first item is answered: PTSD spends step 4 on
      the trauma gate. */
  function FirstStep(d: Disorder): int {
    if d == PTSD then 5 else 4
  }

  /** The step whose answer completes the questionnaire: Anxiety 10,
      Depression 12, Addiction 13, PTSD 9. */
  function LastStep(d: Disorder): (t: int)
    ensures t == FirstStep(d) + ItemCount(d) - 1
  {
    match d
    case Anxiety => 10
    case Depression => 12
    case Addiction => 13
    case PTSD => 9
  }

  /** No item is asked twice: the items of a questionnaire are different
      questions. */
  lemma ItemsDistinct(d: Disorder, i: nat, j: nat)
    requires i < j < ItemCount(d)
    ensures Items(d)[i] != Items(d)[j]
  {
  }

  /** The text of a reply that asks a question: the two narrative prompts,
      or the listed item. */
  function QuestionText(r: Reply): (q: string)
    requires r.AskTrigger? || r.AskHistory? || (r.AskItem? && r.item < ItemCount(r.disorder))
    ensures r.AskItem? ==> q in Items(r.disorder)
    ensures r.AskTrigger? ==> q != HistoryQuestion
  {
    match r
    case AskTrigger => TriggerQuestion
    case AskHistory => HistoryQuestion
    case AskItem(d, i) => Items(d)[i]
  }

  // -------------------------------------------------------------- answers

  const LikertAnswers: seq<string> := ["0", "1", "2", "3"]

  /** `int(msg)` for an answer already checked against `LikertAnswers`. */
  function LikertValue(msg: string): (v: nat)
    requires msg in LikertAnswers
    ensures v <= 3 && LikertAnswers[v] == msg
  {
    if msg == "0" then 0 else if msg == "1" then 1 else if msg == "2" then 2 else 3
  }

  /** The answers accepted are exactly those `int()` reads as 0..3 without
      whitespace or sign, and their score is what `int()` returns. */
  lemma LikertValueIsInt(msg: string)
    requires msg in LikertAnswers
    ensures ParseInt(msg) == Some(LikertValue(msg) as int)
  {
    var c := if msg == "0" then '0' else if msg == "1" then '1' else if msg == "2" then '2' else '3';
    assert msg == [c];
    ParseSingleDigit(c);
  }

  /** The literal lists `msg.lower()` is compared against. */
  const YesTokens: seq<string> := ["yes", "yES", "yEs", "yeS", "YeS", "YEs"]
  const NoTokens: seq<string> := ["no", "nO"]

  predicate SaysYes(msg: string) {
    Lower(msg) in YesTokens
  }

  predicate SaysNo(msg: string) {
    Lower(msg) in NoTokens
  }

  /** The mixed-case entries of the token lists are dead: an answer counts as
      "yes" (or "no") exactly when it spells the word in any case. */
  lemma TokensAreCaseInsensitive(msg: string)
    ensures SaysYes(msg) <==> Lower(msg) == "yes"
    ensures SaysNo(msg) <==> Lower(msg) == "no"
    ensures !(SaysYes(msg) && SaysNo(msg))
  {
    assert HasUpper("yES") by { assert "yES"[1] == 'E'; }
    assert HasUpper("yEs") by { assert "yEs"[1] == 'E'; }
    assert HasUpper("yeS") by { assert "yeS"[2] == 'S'; }
    assert HasUpper("YeS") by { assert "YeS"[0] == 'Y'; }
    assert HasUpper("YEs") by { assert "YEs"[0] == 'Y'; }
    assert HasUpper("nO") by { assert "nO"[1] == 'O'; }
  }

  // -------------------------------------------------------------- turns

  /** A turn of the Anxiety, Depression or Addiction questionnaire. */
  function LikertTurn(s: Session, d: Disorder, msg: string): (o: Outcome)
    requires d != PTSD
    // anything but "0".."3" is refused and changes nothing
    ensures msg !in LikertAnswers ==> o == Outcome(s, FormatReminder, None)
    // a valid answer to a pending item adds its value and moves on, or ends the run
    ensures msg in LikertAnswers && 4 <= s.total <= LastStep(d) ==>
              && o.session.userScore == s.userScore + LikertValue(msg)
              && o.session.total == (if s.total == LastStep(d) then -1 else s.total + 1)
              && o.session == s.(userScore := o.session.userScore, total := o.session.total)
    // a valid answer before the last item asks the next item and writes nothing
    ensures msg in LikertAnswers && FirstStep(d) <= s.total < LastStep(d) ==>
              o.reply == AskItem(d, s.total - 3) && o.write == None
    // the next question is the item after the one just answered
    ensures o.reply.AskItem? ==>
              o.reply.disorder == d && o.reply.item == s.total - FirstStep(d) + 1 && o.reply.item < ItemCount(d)
    // the severity is written once, from the final score, on the last answer
    ensures o.write.Some? <==> o.session.total == -1 && s.total != -1
    ensures o.write.Some? ==> o.write == Some(SetSeverity(Table(d, o.session.userScore))) && o.reply == Verdict(d, Table(d, o.session.userScore))
    ensures !(4 <= s.total <= LastStep(d)) ==> o.session == s
  {
    if msg !in LikertAnswers then Outcome(s, FormatReminder, None)
    else
      var score := s.userScore + LikertValue(msg);
      if 4 <= s.total < LastStep(d) then
        Outcome(s.(userScore := score, total := s.total + 1), AskItem(d, s.total - 3), None)
      else if s.total == LastStep(d) then
        var severity := Table(d, score);
        Outcome(s.(userScore := score, total := -1), Verdict(d, severity), Some(SetSeverity(severity)))
      else
        Outcome(s, ThankYou, None)
  }

  /** A turn of the PTSD questionnaire: the trauma gate at step 4, then five
      yes/no items scored one point per "yes". */
  function PtsdTurn(s: Session, msg: string): (o: Outcome)
    // the gate: "no" ends at 15 with Minimal, "yes" opens the items
    ensures s.total == 4 && Lower(msg) == "no" ==>
              o == Outcome(s.(total := 15), TraumaAdvice, Some(SetSeverity(Minimal)))
    ensures s.total == 4 && Lower(msg) == "yes" ==> o == Outcome(s.(total := 5), AskItem(PTSD, 0), None)
    // an item: one point per "yes", none per "no"; the fifth answer ends the run
    ensures 5 <= s.total <= 9 && (Lower(msg) == "yes" || Lower(msg) == "no") ==>
              && o.session.userScore == s.userScore + (if Lower(msg) == "yes" then 1 else 0)
              && o.session.total == (if s.total == 9 then -1 else s.total + 1)
              && o.session == s.(userScore := o.session.userScore, total := o.session.total)
    // anything else is refused and changes nothing
    ensures 4 <= s.total <= 9 && Lower(msg) != "yes" && Lower(msg) != "no" ==>
              o == Outcome(s, YesNoReminder, None)
    // "yes" at the gate, or either answer before the fifth item, asks the next item
    ensures (s.total == 4 && Lower(msg) == "yes") || (5 <= s.total < 9 && (Lower(msg) == "yes" || Lower(msg) == "no")) ==>
              o.reply == AskItem(PTSD, s.total - 4) && o.write == None
    ensures o.reply.AskItem? ==>
              o.reply.disorder == PTSD && o.reply.item == s.total - FirstStep(PTSD) + 1 && o.reply.item < ItemCount(PTSD)
    ensures o.session.total == -1 && s.total != -1 ==>
              o.write == Some(SetSeverity(Table(PTSD, o.session.userScore))) && o.reply == Verdict(PTSD, Table(PTSD, o.session.userScore))
    ensures !(4 <= s.total <= 9) ==> o == Outcome(s, ThankYou, None)
  {
    TokensAreCaseInsensitive(msg);
    var yes := SaysYes(msg);
    var no := SaysNo(msg);
    if s.total == 4 then
      if no then Outcome(s.(total := 15), TraumaAdvice, Some(SetSeverity(Minimal)))
      else if yes then Outcome(s.(total := 5), AskItem(PTSD, 0), None)
      else Outcome(s, YesNoReminder, None)
    else if 5 <= s.total < 9 then
      if yes || no then
        Outcome(s.(userScore := s.userScore + (if yes then 1 else 0), total := s.total + 1),
                AskItem(PTSD, s.total - 4), None)
      else Outcome(s, YesNoReminder, None)
    else if s.total == 9 then
      if yes || no then
        var score := s.userScore + (if yes then 1 else 0);
        var severity := Table(PTSD, score);
        Outcome(s.(userScore := score, total := -1), Verdict(PTSD, severity), Some(SetSeverity(severity)))
      else Outcome(s, YesNoReminder, None)
    else Outcome(s, ThankYou, None)
  }

  /** A Likert turn asks a question exactly after a valid answer before the
      last item, and the question is the list entry for the step it was
      asked at: after the answer at step `total`, item `total - 3`. */
  lemma LikertAsksListedQuestion(s: Session, d: Disorder, msg: string)
    requires d != PTSD
    ensures LikertTurn(s, d, msg).reply.AskItem? <==> msg in LikertAnswers && FirstStep(d) <= s.total < LastStep(d)
    ensures LikertTurn(s, d, msg).reply.AskItem? ==>
              s.total - 3 < |Items(d)| && QuestionText(LikertTurn(s, d, msg).reply) == Items(d)[s.total - 3]
  {
  }

  /** The same for PTSD items, where the gate shifts the list by one step. */
  lemma PtsdAsksListedQuestion(s: Session, msg: string)
    ensures PtsdTurn(s, msg).reply.AskItem? <==>
              (s.total == 4 && Lower(msg) == "yes") || (5 <= s.total < 9 && (Lower(msg) == "yes" || Lower(msg) == "no"))
    ensures PtsdTurn(s, msg).reply.AskItem? ==>
              s.total - 4 < |Items(PTSD)| && QuestionText(PtsdTurn(s, msg).reply) == Items(PTSD)[s.total - 4]
  {
  }

  /** A message while the diagnosis page is open. */
  function DiagnosisTurn(s: Session, msg: string, classify: string -> Disorder): (o: Outcome)
    ensures s.total == 1 ==> o == Outcome(s.(total := 2, text := s.text + msg), AskTrigger, None)
    ensures s.total == 2 ==> o == Outcome(s.(total := 3, text := s.text + " " + msg), AskHistory, None)
    ensures s.total == 3 ==>
              var text := s.text + " " + msg;
              o == Outcome(s.(total := 4, text := text, predicted := Some(classify(text))),
                           Introduce(classify(text)), Some(SetDisorder(classify(text))))
    ensures s.total < 1 ==> o == Outcome(s, ThankYou, None)
  {
    if s.total == 1 then
      Outcome(s.(total := 2, text := s.text + msg), AskTrigger, None)
    else if s.total == 2 then
      Outcome(s.(total := 3, text := s.text + " " + msg), AskHistory, None)
    else if s.total == 3 then
      var text := s.text + " " + msg;
      var d := classify(text);
      Outcome(s.(total := 4, text := text, predicted := Some(d)), Introduce(d), Some(SetDisorder(d)))
    else if s.total >= 4 then
      match s.predicted
      case Some(PTSD) => PtsdTurn(s, msg)
      case Some(d) => LikertTurn(s, d, msg)
      case None => Outcome(s, ThankYou, None)
    else
      Outcome(s, ThankYou, None)
  }

  /** A message in the counseling workflow: the model answers, the model
      call records the message and the answer in its store, and the history
      column is overwritten with every message of that store. */
  function CounselTurn(s: Session, msg: string, w: World): (o: Outcome)
    ensures o.session == s && o.reply == Counsel(w.aiReply)
    ensures o.write.Some? && o.write.value.SetHistory?
    ensures |w.storeMessages| > 0 ==> StartsWith(o.write.value.history, History.Join(w.storeMessages) + History.Separator)
    ensures |w.storeMessages| > 0 ==>
              o.write.value.history == History.Join(w.storeMessages) + History.Separator + msg + History.Separator + w.aiReply
    ensures |w.storeMessages| == 0 ==> o.write.value.history == msg + History.Separator + w.aiReply
    ensures EndsWith(o.write.value.history, msg + History.Separator + w.aiReply)
  {
    Outcome(s, Counsel(w.aiReply), Some(SetHistory(History.StoreHistory(w.storeMessages, msg, w.aiReply))))
  }

  /** One chat message against one session. */
  function Step(s: Session, msg: string, w: World): (o: Outcome)
    // the workflow flags belong to the pages, never to a message
    ensures o.session.inDiagnosis == s.inDiagnosis && o.session.inCounselor == s.inCounselor
    // outside both workflows (or in both) nothing happens
    ensures !Diagnosing(s) && !Counseling(s) ==> o == Outcome(s, VisitPage, None)
    // reminders and closing messages leave the session and the database alone
    ensures o.reply in {FormatReminder, YesNoReminder, ThankYou, VisitPage} ==> o.session == s && o.write == None
    // a finished diagnosis stays finished
    ensures Terminal(s.total) ==> o.session == s && (o.write.Some? ==> o.write.value.SetHistory?)
    // a severity is written exactly when the diagnosis finishes
    ensures (o.write.Some? && o.write.value.SetSeverity?) <==> Terminal(o.session.total) && !Terminal(s.total)
    // the score never falls and grows by at most one Likert answer
    ensures s.userScore <= o.session.userScore <= s.userScore + 3
    // the counter only advances one step or jumps to a terminal value
    ensures o.session.total == s.total || o.session.total == s.total + 1 || Terminal(o.session.total)
  {
    if Diagnosing(s) then DiagnosisTurn(s, msg, w.classify)
    else if Counseling(s) then CounselTurn(s, msg, w)
    else Outcome(s, VisitPage, None)
  }

  // -------------------------------------------------------- the session map

  /** `get_response`: find or create the user's entry, then take one step. */
  function GetResponse(sessions: map<string, Session>, user: Option<string>, msg: string, w: World)
    : (r: (map<string, Session>, Outcome))
    ensures Username(user) in r.0
    ensures r.0.Keys == sessions.Keys + {Username(user)}
    ensures forall u :: u in sessions && u != Username(user) ==> r.0[u] == sessions[u]
    ensures Username(user) !in sessions ==> r.1 == Outcome(Fresh, VisitPage, None) && r.0[Username(user)] == Fresh
    ensures r.0[Username(user)] == r.1.session
    // a known user's session takes one step
    ensures Username(user) in sessions ==> r.1 == Step(sessions[Username(user)], msg, w)
  {
    var name := Username(user);
    var s := if name in sessions then sessions[name] else Fresh;
    var o := Step(s, msg, w);
    (sessions[name := o.session], o)
  }

  /** Opening the diagnosis page: an unauthenticated visitor is redirected and
      nothing changes; otherwise the user's entry is reset to step 1. */
  function OpenDiagnosis(sessions: map<string, Session>, user: Option<string>): (r: map<string, Session>)
    ensures user.None? ==> r == sessions
    ensures user.Some? ==> r.Keys == sessions.Keys + {user.value}
    ensures user.Some? ==> var s := r[user.value];
              s.inDiagnosis && !s.inCounselor && s.total == 1 && s.userScore == 0 && s.text == " " && s.predicted == None
    ensures forall u :: u in sessions && (user.None? || u != user.value) ==> u in r && r[u] == sessions[u]
  {
    match user
    case None => sessions
    case Some(u) => sessions[u := DiagnosisStart]
  }

  /** Opening the counseling page, the same way. */
  function OpenCounsel(sessions: map<string, Session>, user: Option<string>): (r: map<string, Session>)
    ensures user.None? ==> r == sessions
    ensures user.Some? ==> r.Keys == sessions.Keys + {user.value}
    ensures user.Some? ==> var s := r[user.value];
              !s.inDiagnosis && s.inCounselor && s.total == 0 && s.userScore == 0 && s.text == "" && s.predicted == None
    ensures forall u :: u in sessions && (user.None? || u != user.value) ==> u in r && r[u] == sessions[u]
  {
    match user
    case None => sessions
    case Some(u) => sessions[u := CounselStart]
  }
}

=== FILE: runs.dfy ===
/** Whole conversations with `get_response`: the states a diagnosis can reach,
    and what a complete questionnaire run scores and writes. */
module QuestionnaireRuns {
  import opened Py
  import opened Domain
  import opened Scales
  import opened Questionnaire

  // ------------------------------------------------------ reachable states

  /** Where a questionnaire for `d` can stand, with the score it can have
      collected so far. */
  predicate Phase(d: Disorder, total: int, score: int) {
    if d == PTSD then
      || (total == 4 && score == 0)
      || (5 <= total <= 9 && 0 <= score <= total - 5)
      || (total == 15 && score == 0)
      || (total == -1 && 0 <= score <= MaxScore(d))
    else
      || (4 <= total <= LastStep(d) && 0 <= score <= 3 * (total - 4))
      || (total == -1 && 0 <= score <= MaxScore(d))
  }

  /** Every entry the pages and the messages can produce.  Outside the
      diagnosis workflow no message changes the entry, so nothing is asked. */
  predicate Inv(s: Session) {
    Diagnosing(s) ==>
      match s.predicted
      case None => 1 <= s.total <= 3 && s.userScore == 0
      case Some(d) => Phase(d, s.total, s.userScore)
  }

  lemma StartsAreReachable()
    ensures Inv(Fresh) && Inv(DiagnosisStart) && Inv(CounselStart)
  {
  }

  /** No message leads out of the reachable states. */
  lemma StepPreservesInv(s: Session, msg: string, w: World)
    requires Inv(s)
    ensures Inv(Step(s, msg, w).session)
  {
    if Diagnosing(s) && s.total >= 4 && s.predicted.Some? && s.predicted.value == PTSD {
      TokensAreCaseInsensitive(msg);
    }
  }

  /** In a reachable state a finished diagnosis answers every message with the
      closing line and changes nothing. */
  lemma FinishedIsAbsorbing(s: Session, msg: string, w: World)
    requires Inv(s) && Diagnosing(s) && Terminal(s.total)
    ensures Step(s, msg, w) == Outcome(s, ThankYou, None)
  {
  }

  /** In a reachable state every severity written comes from the scale of the
      predicted disorder, read at a score a complete run can reach, except the
      PTSD gate's "Minimal". */
  lemma SeverityFromReachableScore(s: Session, msg: string, w: World)
    requires Inv(s) && Diagnosing(s)
    requires Step(s, msg, w).write.Some? && Step(s, msg, w).write.value.SetSeverity?
    ensures s.predicted.Some?
    ensures var o := Step(s, msg, w);
            var d := s.predicted.value;
            || (o.write.value.severity == Table(d, o.session.userScore) && 0 <= o.session.userScore <= MaxScore(d))
            || (d == PTSD && o.write.value.severity == Minimal && o.session.total == 15)
  {
    StepPreservesInv(s, msg, w);
  }

  // ---------------------------------------------------------------- runs

  function WriteOf(o: Outcome): seq<Write> {
    if o.write.Some? then [o.write.value] else []
  }

  /** The entry after a sequence of messages, and the database updates they
      made, oldest first. */
  function Run(s: Session, msgs: seq<string>, w: World): (r: (Session, seq<Write>))
    ensures Inv(s) ==> Inv(r.0)
    ensures r.0.inDiagnosis == s.inDiagnosis && r.0.inCounselor == s.inCounselor
    ensures s.userScore <= r.0.userScore <= s.userScore + 3 * |msgs|
    ensures |r.1| <= |msgs|
    decreases |msgs|
  {
    if |msgs| == 0 then (s, [])
    else
      var o := Step(s, msgs[0], w);
      assert Inv(s) ==> Inv(o.session) by {
        if Inv(s) { StepPreservesInv(s, msgs[0], w); }
      }
      var rest := Run(o.session, msgs[1..], w);
      (rest.0, WriteOf(o) + rest.1)
  }

  /** Running `a` and then `b` from where `a` stopped ends in the same entry,
      with the writes of both in order, as running `a + b` at once. */
  predicate Composes(s: Session, a: seq<string>, b: seq<string>, w: World) {
    EndsAlike(s, a, b, w) && WritesAlike(s, a, b, w)
  }

  predicate EndsAlike(s: Session, a: seq<string>, b: seq<string>, w: World) {
    Run(s, a + b, w).0 == Run(Run(s, a, w).0, b, w).0
  }

  predicate WritesAlike(s: Session, a: seq<string>, b: seq<string>, w: World) {
    Run(s, a + b, w).1 == Run(s, a, w).1 + Run(Run(s, a, w).0, b, w).1
  }

  /** The first message of `a` carries the final entry of the rest back to `s`. */
  lemma EndsAlikeStep(s: Session, a: seq<string>, b: seq<string>, w: World)
    requires |a| > 0 && EndsAlike(Step(s, a[0], w).session, a[1..], b, w)
    ensures EndsAlike(s, a, b, w)
  {
    assert (a + b)[0] == a[0];
    assert (a + b)[1..] == a[1..] + b;
  }

  /** A run of at least one message is its first step followed by the rest. */
  predicate FirstThenRest(s: Session, msgs: seq<string>, w: World)
    requires |msgs| > 0
  {
    var o := Step(s, msgs[0], w);
    Run(s, msgs, w) == (Run(o.session, msgs[1..], w).0, WriteOf(o) + Run(o.session, msgs[1..], w).1)
  }

  lemma RunFirst(s: Session, msgs: seq<string>, w: World)
    requires |msgs| > 0
    ensures FirstThenRest(s, msgs, w)
  {
  }

  /** Concatenation regroups; named so that a proof can ask for it on the
      writes of a run without spelling the runs out. */
  lemma Regroup<T>(x: seq<T>, y: seq<T>, z: seq<T>)
    ensures x + (y + z) == (x + y) + z
  {
  }

  /** The first message of `a` carries the writes of the rest back to `s`. */
  lemma WritesAlikeStep(s: Session, a: seq<string>, b: seq<string>, w: World)
    requires |a| > 0 && EndsAlike(Step(s, a[0], w).session, a[1..], b, w)
    requires WritesAlike(Step(s, a[0], w).session, a[1..], b, w)
    ensures WritesAlike(s, a, b, w)
  {
    var o := Step(s, a[0], w);
    assert (a + b)[0] == a[0];
    assert (a + b)[1..] == a[1..] + b;
    RunFirst(s, a, w);
    RunFirst(s, a + b, w);
    var mid := Run(o.session, a[1..], w);
    Regroup(WriteOf(o), mid.1, Run(mid.0, b, w).1);
  }

  lemma {:induction false} RunAppend(s: Session, a: seq<string>, b: seq<string>, w: World)
    ensures Composes(s, a, b, w)
    decreases |a|
  {
    if |a| > 0 {
      RunAppend(Step(s, a[0], w).session, a[1..], b, w);
      EndsAlikeStep(s, a, b, w);
      WritesAlikeStep(s, a, b, w);
    } else {
      assert a + b == b;
    }
  }

  /** A refused answer can be dropped from a conversation without changing
      where it ends or what it writes. */
  lemma RefusalIsInvisible(s: Session, bad: string, rest: seq<string>, w: World)
    requires Step(s, bad, w).reply in {FormatReminder, YesNoReminder}
    ensures Run(s, [bad] + rest, w) == Run(s, rest, w)
  {
    var o := Step(s, bad, w);
    assert ([bad] + rest)[1..] == rest;
    assert o.session == s && WriteOf(o) == [];
    assert [] + Run(s, rest, w).1 == Run(s, rest, w).1;
  }

  // ------------------------------------------------------- Likert runs

  predicate AllLikert(answers: seq<string>) {
    forall i :: 0 <= i < |answers| ==> answers[i] in LikertAnswers
  }

  /** The sum `int()` gives the answers. */
  function Sum(answers: seq<string>): int
    requires AllLikert(answers)
    decreases |answers|
  {
    if |answers| == 0 then 0 else LikertValue(answers[0]) + Sum(answers[1..])
  }

  lemma {:induction false} SumBounds(answers: seq<string>)
    requires AllLikert(answers)
    ensures 0 <= Sum(answers) <= 3 * |answers|
    decreases |answers|
  {
    if |answers| > 0 {
      SumBounds(answers[1..]);
    }
  }

  /** One valid Likert answer: it adds its value and advances, or at the last
      step ends the run with the table's write. */
  lemma LikertItemStep(s: Session, d: Disorder, msg: string, w: World)
    requires Diagnosing(s) && s.predicted == Some(d) && d != PTSD
    requires 4 <= s.total <= LastStep(d) && msg in LikertAnswers
    ensures var o := Step(s, msg, w);
            var score := s.userScore + LikertValue(msg);
            if s.total == LastStep(d) then
              o.session == s.(total := -1, userScore := score) && WriteOf(o) == [SetSeverity(Table(d, score))]
            else
              o.session == s.(total := s.total + 1, userScore := score) && WriteOf(o) == []
  {
    assert Step(s, msg, w) == LikertTurn(s, d, msg);
  }

  /** A valid Likert answer before the last step: the run goes on from the
      next step with the value added, and nothing is written. */
  lemma LikertRunCons(s: Session, d: Disorder, answers: seq<string>, w: World)
    requires Diagnosing(s) && s.predicted == Some(d) && d != PTSD
    requires 4 <= s.total < LastStep(d) && |answers| > 0 && answers[0] in LikertAnswers
    ensures Run(s, answers, w) == Run(s.(total := s.total + 1, userScore := s.userScore + LikertValue(answers[0])), answers[1..], w)
  {
    LikertItemStep(s, d, answers[0], w);
    var rest := Run(Step(s, answers[0], w).session, answers[1..], w);
    assert [] + rest.1 == rest.1;
  }

  /** The answer at the last step ends the run with the table's write. */
  lemma LikertRunLast(s: Session, d: Disorder, answers: seq<string>, w: World)
    requires Diagnosing(s) && s.predicted == Some(d) && d != PTSD
    requires s.total == LastStep(d) && |answers| == 1 && AllLikert(answers)
    ensures var score := s.userScore + Sum(answers);
            Run(s, answers, w) == (s.(total := -1, userScore := score), [SetSeverity(Table(d, score))])
  {
    assert answers[0] in LikertAnswers;
    LikertItemStep(s, d, answers[0], w);
    var o := Step(s, answers[0], w);
    assert answers[1..] == [];
    assert Sum(answers) == LikertValue(answers[0]);
    assert Run(o.session, [], w) == (o.session, []);
    assert WriteOf(o) + [] == WriteOf(o);
  }

  /** What a run of `n` valid Likert answers worth `score` in all, started at
      entry `s`, leaves: the entry with the score and, once the last item is
      answered, the table's write for it. */
  predicate LikertEndsAt(r: (Session, seq<Write>), s: Session, d: Disorder, n: int, score: int) {
    if s.total + n == LastStep(d) + 1 then
      r.0 == s.(total := -1, userScore := score) && r.1 == [SetSeverity(Table(d, score))]
    else
      r.0 == s.(total := s.total + n, userScore := score) && r.1 == []
  }

  /** The end of a run does not depend on where one counts it from, as long as
      the start moves along with the answers already given. */
  lemma LikertEndsShift(r: (Session, seq<Write>), s: Session, next: Session, d: Disorder, n: int, score: int)
    requires next.total == s.total + 1 && next == s.(total := next.total, userScore := next.userScore)
    requires LikertEndsAt(r, next, d, n - 1, score)
    ensures LikertEndsAt(r, s, d, n, score)
  {
    assert next.(total := -1, userScore := score) == s.(total := -1, userScore := score);
    assert next.(total := next.total + n - 1, userScore := score) == s.(total := s.total + n, userScore := score);
  }

  /** What a run of valid Likert answers from a questionnaire step leaves. */
  predicate LikertRunEnds(s: Session, d: Disorder, answers: seq<string>, w: World)
    requires AllLikert(answers)
  {
    LikertEndsAt(Run(s, answers, w), s, d, |answers|, s.userScore + Sum(answers))
  }

  /** Splits a list of valid Likert answers into its first answer's value and
      the rest. */
  lemma LikertTail(answers: seq<string>) returns (value: int)
    requires |answers| > 0 && AllLikert(answers)
    ensures answers[0] in LikertAnswers && value == LikertValue(answers[0])
    ensures AllLikert(answers[1..])
    ensures Sum(answers) == value + Sum(answers[1..])
  {
    value := LikertValue(answers[0]);
    var rest := answers[1..];
    forall i | 0 <= i < |rest| ensures rest[i] in LikertAnswers {
      assert rest[i] == answers[i + 1];
    }
  }

  /** A first answer that only moves the entry on carries the outcome of the
      rest of the run back to its start. */
  lemma LikertRunStep(s: Session, d: Disorder, answers: seq<string>, w: World)
    requires |answers| > 0 && AllLikert(answers) && AllLikert(answers[1..])
    requires Ran(s, answers, w) == Ran(s.(total := s.total + 1, userScore := s.userScore + LikertValue(answers[0])), answers[1..], w)
    requires LikertRunEnds(s.(total := s.total + 1, userScore := s.userScore + LikertValue(answers[0])), d, answers[1..], w)
    ensures LikertRunEnds(s, d, answers, w)
  {
    var value := LikertTail(answers);
    var next := s.(total := s.total + 1, userScore := s.userScore + value);
    LikertEndsShift(Ran(s, answers, w), s, next, d, |answers|, s.userScore + Sum(answers));
  }

  /** `Run` under a second name: a proof that mentions a run through it lets
      the solver unfold the run one message deep instead of two. */
  function Ran(s: Session, msgs: seq<string>, w: World): (Session, seq<Write>) {
    Run(s, msgs, w)
  }

  /** Valid answers from step `s.total` on add up their values; the answer
      to the last item ends the run and writes the table's label for the
      final score. */
  lemma {:induction false} LikertRun(s: Session, d: Disorder, answers: seq<string>, w: World)
    requires Diagnosing(s) && s.predicted == Some(d) && d != PTSD
    requires 4 <= s.total <= LastStep(d) && s.total + |answers| <= LastStep(d) + 1
    requires AllLikert(answers)
    ensures LikertRunEnds(s, d, answers, w)
    decreases |answers|
  {
    if |answers| > 0 {
      if s.total == LastStep(d) {
        LikertRunLast(s, d, answers, w);
      } else {
        var value := LikertTail(answers);
        LikertRun(s.(total := s.total + 1, userScore := s.userScore + value), d, answers[1..], w);
        LikertRunCons(s, d, answers, w);
        LikertRunStep(s, d, answers, w);
      }
    }
  }

  // --------------------------------------------------------- PTSD runs

  predicate AllYesNo(answers: seq<string>) {
    forall i :: 0 <= i < |answers| ==> Lower(answers[i]) == "yes" || Lower(answers[i]) == "no"
  }

  /** How many answers say "yes", in any letter case. */
  function YesCount(answers: seq<string>): (n: nat)
    ensures n <= |answers|
    decreases |answers|
  {
    if |answers| == 0 then 0 else (if Lower(answers[0]) == "yes" then 1 else 0) + YesCount(answers[1..])
  }

  /** One yes/no answer to a PTSD item: a point for "yes", then the next
      step, or at step 9 the end of the run with the PTSD table's write. */
  lemma PtsdItemStep(s: Session, msg: string, w: World)
    requires Diagnosing(s) && s.predicted == Some(PTSD) && 5 <= s.total <= LastStep(PTSD)
    requires Lower(msg) == "yes" || Lower(msg) == "no"
    ensures var o := Step(s, msg, w);
            var score := s.userScore + (if Lower(msg) == "yes" then 1 else 0);
            if s.total == LastStep(PTSD) then
              o.session == s.(total := -1, userScore := score) && WriteOf(o) == [SetSeverity(Table(PTSD, score))]
            else
              o.session == s.(total := s.total + 1, userScore := score) && WriteOf(o) == []
  {
    assert Step(s, msg, w) == PtsdTurn(s, msg);
  }

  /** Splits a list of yes/no answers into its first answer's point and the
      rest. */
  lemma YesNoTail(answers: seq<string>) returns (point: int)
    requires |answers| > 0 && AllYesNo(answers)
    ensures Lower(answers[0]) == "yes" || Lower(answers[0]) == "no"
    ensures point == (if Lower(answers[0]) == "yes" then 1 else 0)
    ensures AllYesNo(answers[1..])
    ensures YesCount(answers) == point + YesCount(answers[1..])
  {
    point := if Lower(answers[0]) == "yes" then 1 else 0;
    var rest := answers[1..];
    forall i | 0 <= i < |rest| ensures Lower(rest[i]) == "yes" || Lower(rest[i]) == "no" {
      assert rest[i] == answers[i + 1];
    }
  }

  /** A yes/no answer before the last item: the run goes on from the next
      step with the point added, and nothing is written. */
  lemma PtsdRunCons(s: Session, answers: seq<string>, w: World)
    requires Diagnosing(s) && s.predicted == Some(PTSD) && 5 <= s.total < LastStep(PTSD)
    requires |answers| > 0 && (Lower(answers[0]) == "yes" || Lower(answers[0]) == "no")
    ensures Run(s, answers, w)
            == Run(s.(total := s.total + 1, userScore := s.userScore + (if Lower(answers[0]) == "yes" then 1 else 0)), answers[1..], w)
  {
    PtsdItemStep(s, answers[0], w);
    var rest := Run(Step(s, answers[0], w).session, answers[1..], w);
    assert [] + rest.1 == rest.1;
  }

  /** The answer to the fifth item ends the run with the PTSD table's write. */
  lemma PtsdRunLast(s: Session, answers: seq<string>, w: World)
    requires Diagnosing(s) && s.predicted == Some(PTSD) && s.total == LastStep(PTSD)
    requires |answers| == 1 && AllYesNo(answers)
    ensures var score := s.userScore + YesCount(answers);
            Run(s, answers, w) == (s.(total := -1, userScore := score), [SetSeverity(Table(PTSD, score))])
  {
    assert Lower(answers[0]) == "yes" || Lower(answers[0]) == "no";
    PtsdItemStep(s, answers[0], w);
    var o := Step(s, answers[0], w);
    assert answers[1..] == [];
    assert YesCount(answers) == (if Lower(answers[0]) == "yes" then 1 else 0);
    assert Run(o.session, [], w) == (o.session, []);
    assert WriteOf(o) + [] == WriteOf(o);
  }

  /** What a run of yes/no answers from a PTSD item step leaves: the entry
      with one point per "yes" and, once the fifth item is answered, the
      PTSD table's write. */
  predicate PtsdRunEnds(s: Session, answers: seq<string>, w: World) {
    var r := Run(s, answers, w);
    var score := s.userScore + YesCount(answers);
    if s.total + |answers| == LastStep(PTSD) + 1 then
      r.0 == s.(total := -1, userScore := score) && r.1 == [SetSeverity(Table(PTSD, score))]
    else
      r.0 == s.(total := s.total + |answers|, userScore := score) && r.1 == []
  }

  /** One answer before the last item carries the outcome of the rest of the
      run back to its start. */
  lemma PtsdRunStep(s: Session, answers: seq<string>, w: World)
    requires Diagnosing(s) && s.predicted == Some(PTSD)
    requires 5 <= s.total < LastStep(PTSD) && s.total + |answers| <= LastStep(PTSD) + 1
    requires |answers| > 0 && AllYesNo(answers)
    requires PtsdRunEnds(s.(total := s.total + 1, userScore := s.userScore + (if Lower(answers[0]) == "yes" then 1 else 0)), answers[1..], w)
    ensures PtsdRunEnds(s, answers, w)
  {
    var rest := answers[1..];
    var point := YesNoTail(answers);
    var next := s.(total := s.total + 1, userScore := s.userScore + point);
    var score := s.userScore + YesCount(answers);
    assert next.userScore + YesCount(rest) == score && next.total + |rest| == s.total + |answers|;
    assert next.(total := -1, userScore := score) == s.(total := -1, userScore := score);
    assert next.(total := s.total + |answers|, userScore := score) == s.(total := s.total + |answers|, userScore := score);
    PtsdRunCons(s, answers, w);
  }

  /** Yes/no answers from step `s.total` on score one point per "yes"; the
      fifth item's answer ends the run and writes the PTSD label. */
  lemma {:induction false} PtsdRun(s: Session, answers: seq<string>, w: World)
    requires Diagnosing(s) && s.predicted == Some(PTSD)
    requires 5 <= s.total <= LastStep(PTSD) && s.total + |answers| <= LastStep(PTSD) + 1
    requires AllYesNo(answers)
    ensures PtsdRunEnds(s, answers, w)
    decreases |answers|
  {
    if |answers| > 0 {
      if s.total == LastStep(PTSD) {
        PtsdRunLast(s, answers, w);
      } else {
        var point := YesNoTail(answers);
        PtsdRun(s.(total := s.total + 1, userScore := s.userScore + point), answers[1..], w);
        PtsdRunStep(s, answers, w);
      }
    }
  }

  // ------------------------------------------------------ whole diagnoses

  /** The text the classifier sees after the three narrative answers. */
  function Narrative(m1: string, m2: string, m3: string): string {
    " " + m1 + " " + m2 + " " + m3
  }

  lemma NarrativeRun(m1: string, m2: string, m3: string, w: World)
    ensures var d := w.classify(Narrative(m1, m2, m3));
            Run(DiagnosisStart, [m1, m2, m3], w)
              == (DiagnosisStart.(total := 4, text := Narrative(m1, m2, m3), predicted := Some(d)), [SetDisorder(d)])
  {
    var d := w.classify(Narrative(m1, m2, m3));
    var s1 := DiagnosisStart.(total := 2, text := " " + m1);
    var s2 := s1.(total := 3, text := " " + m1 + " " + m2);
    var s3 := s2.(total := 4, text := Narrative(m1, m2, m3), predicted := Some(d));
    assert Step(s2, m3, w) == Outcome(s3, Introduce(d), Some(SetDisorder(d)));
    assert [m3][1..] == [];
    assert Run(s3, [], w) == (s3, []);
    assert [SetDisorder(d)] + [] == [SetDisorder(d)];
    assert Run(s2, [m3], w) == (s3, [SetDisorder(d)]);
    assert Step(s1, m2, w).session == s2 && WriteOf(Step(s1, m2, w)) == [];
    assert [m2, m3][1..] == [m3];
    assert [] + [SetDisorder(d)] == [SetDisorder(d)];
    assert Run(s1, [m2, m3], w) == (s3, [SetDisorder(d)]);
    assert Step(DiagnosisStart, m1, w).session == s1;
    assert [m1, m2, m3][1..] == [m2, m3];
  }

  /** A complete Anxiety, Depression or Addiction diagnosis: three narrative
      answers, then one valid answer per item.  It ends finished, with the
      answers' sum as score, within the scale's range, having written the
      predicted disorder and then the table's label for that sum. */
  lemma CompleteLikertDiagnosis(m1: string, m2: string, m3: string, answers: seq<string>, w: World)
    requires w.classify(Narrative(m1, m2, m3)) != PTSD
    requires |answers| == ItemCount(w.classify(Narrative(m1, m2, m3)))
    requires AllLikert(answers)
    ensures var d := w.classify(Narrative(m1, m2, m3));
            var r := Run(DiagnosisStart, [m1, m2, m3] + answers, w);
            && r.0.total == -1
            && r.0.userScore == Sum(answers)
            && 0 <= Sum(answers) <= MaxScore(d)
            && r.1 == [SetDisorder(d), SetSeverity(Table(d, Sum(answers)))]
  {
    var d := w.classify(Narrative(m1, m2, m3));
    RunAppend(DiagnosisStart, [m1, m2, m3], answers, w);
    NarrativeRun(m1, m2, m3, w);
    var mid := Run(DiagnosisStart, [m1, m2, m3], w).0;
    LikertRun(mid, d, answers, w);
    SumBounds(answers);
  }

  /** A complete PTSD diagnosis past the gate: "yes" to the gate, then five
      yes/no answers, scored one point per "yes". */
  lemma CompletePtsdDiagnosis(m1: string, m2: string, m3: string, gate: string, answers: seq<string>, w: World)
    requires w.classify(Narrative(m1, m2, m3)) == PTSD
    requires Lower(gate) == "yes"
    requires |answers| == ItemCount(PTSD) && AllYesNo(answers)
    ensures var r := Run(DiagnosisStart, [m1, m2, m3, gate] + answers, w);
            && r.0.total == -1
            && r.0.userScore == YesCount(answers)
            && r.1 == [SetDisorder(PTSD), SetSeverity(Table(PTSD, YesCount(answers)))]
  {
    assert [m1, m2, m3, gate] == [m1, m2, m3] + [gate];
    RunAppend(DiagnosisStart, [m1, m2, m3], [gate], w);
    RunAppend(DiagnosisStart, [m1, m2, m3, gate], answers, w);
    NarrativeRun(m1, m2, m3, w);
    var mid := Run(DiagnosisStart, [m1, m2, m3], w).0;
    assert Run(mid, [gate], w) == (mid.(total := 5), []);
    PtsdRun(mid.(total := 5), answers, w);
  }

  /** The PTSD gate answered "no": the diagnosis ends at step 15 with
      severity Minimal and no item asked. */
  lemma NoTraumaDiagnosis(m1: string, m2: string, m3: string, gate: string, w: World)
    requires w.classify(Narrative(m1, m2, m3)) == PTSD
    requires Lower(gate) == "no"
    ensures var r := Run(DiagnosisStart, [m1, m2, m3, gate], w);
            r.0.total == 15 && r.0.userScore == 0 && r.1 == [SetDisorder(PTSD), SetSeverity(Minimal)]
  {
    assert [m1, m2, m3, gate] == [m1, m2, m3] + [gate];
    RunAppend(DiagnosisStart, [m1, m2, m3], [gate], w);
    NarrativeRun(m1, m2, m3, w);
    var mid := Run(DiagnosisStart, [m1, m2, m3], w).0;
    var o := Step(mid, gate, w);
    assert o == Outcome(mid.(total := 15), TraumaAdvice, Some(SetSeverity(Minimal)));
    assert [gate][1..] == [];
    assert Run(o.session, [], w) == (o.session, []);
    assert Run(mid, [gate], w) == (mid.(total := 15), [SetSeverity(Minimal)] + []);
  }
}

=== FILE: scales.dfy ===
/** The questionnaires' sizes and the score-to-severity tables that close each
    questionnaire in `get_response` (src/mindaid/main.py). */
module Scales {
  import opened Domain

  /** How many answers each questionnaire scores: GAD-7, PHQ-9, a ten-item
      addiction screen, and the five PC-PTSD items after the trauma gate. */
  function ItemCount(d: Disorder): nat {
    match d
    case Anxiety => 7
    case Depression => 9
    case Addiction => 10
    case PTSD => 5
  }

  /** Highest score a run can reach: 0..3 per Likert item, 0..1 per PTSD item. */
  function MaxScore(d: Disorder): nat {
    if d == PTSD then ItemCount(d) else 3 * ItemCount(d)
  }

  /** GAD-7: each label covers one band of scores; a negative score falls
      through every band to "Severe". */
  function AnxietyTable(score: int): (v: Severity)
    ensures v == Minimal <==> 0 <= score <= 4
    ensures v == Mild <==> 5 <= score <= 9
    ensures v == Moderate <==> 10 <= score <= 14
    ensures v == Severe <==> score < 0 || 15 <= score
  {
    if 0 <= score <= 4 then Minimal
    else if 5 <= score <= 9 then Mild
    else if 10 <= score <= 14 then Moderate
    else Severe
  }

  /** PHQ-9, with a "Moderately Severe" band between Moderate and Severe. */
  function DepressionTable(score: int): (v: Severity)
    ensures v == Minimal <==> 0 <= score <= 4
    ensures v == Mild <==> 5 <= score <= 9
    ensures v == Moderate <==> 10 <= score <= 14
    ensures v == ModeratelySevere <==> 15 <= score <= 19
    ensures v == Severe <==> score < 0 || 20 <= score
  {
    if 0 <= score <= 4 then Minimal
    else if 5 <= score <= 9 then Mild
    else if 10 <= score <= 14 then Moderate
    else if 15 <= score <= 19 then ModeratelySevere
    else Severe
  }

  /** The addiction screen, whose mildest label is "Mild". */
  function AddictionTable(score: int): (v: Severity)
    ensures v == Mild <==> 0 <= score <= 6
    ensures v == Moderate <==> 7 <= score <= 15
    ensures v == MildlySevere <==> 16 <= score <= 24
    ensures v == Severe <==> score < 0 || 25 <= score
  {
    if 0 <= score <= 6 then Mild
    else if 7 <= score <= 15 then Moderate
    else if 16 <= score <= 24 then MildlySevere
    else Severe
  }

  /** PC-PTSD: fewer than three "yes" answers is "Mild". */
  function PtsdTable(score: int): (v: Severity)
    ensures v == Mild <==> 0 <= score < 3
    ensures v == ModerateOrSevere <==> score < 0 || 3 <= score
  {
    if 0 <= score < 3 then Mild else ModerateOrSevere
  }

  /** The table the questionnaire for `d` closes with. */
  function Table(d: Disorder, score: int): Severity {
    match d
    case Anxiety => AnxietyTable(score)
    case Depression => DepressionTable(score)
    case Addiction => AddictionTable(score)
    case PTSD => PtsdTable(score)
  }

  // ------------------------------------------------ reference: bands by cut-off

  /** The labels of `d`'s scale, mildest first. */
  function Bands(d: Disorder): (b: seq<Severity>)
    ensures |b| == |Cutoffs(d)| + 1
  {
    match d
    case Anxiety => [Minimal, Mild, Moderate, Severe]
    case Depression => [Minimal, Mild, Moderate, ModeratelySevere, Severe]
    case Addiction => [Mild, Moderate, MildlySevere, Severe]
    case PTSD => [Mild, ModerateOrSevere]
  }

  /** The lowest score of every band but the first, ascending. */
  function Cutoffs(d: Disorder): seq<int> {
    match d
    case Anxiety => [5, 10, 15]
    case Depression => [5, 10, 15, 20]
    case Addiction => [7, 16, 25]
    case PTSD => [3]
  }

  /** How many cut-offs a score has reached. */
  function Reached(cuts: seq<int>, score: int): (k: nat)
    ensures k <= |cuts|
  {
    if |cuts| == 0 then 0
    else (if cuts[0] <= score then 1 else 0) + Reached(cuts[1..], score)
  }

  /** The scale read as "one band per cut-off reached". */
  function BandOf(d: Disorder, score: int): Severity {
    Bands(d)[Reached(Cutoffs(d), score)]
  }

  /** Every non-negative score gets the label of the band it falls in. */
  lemma TableIsBanded(d: Disorder, score: int)
    requires 0 <= score
    ensures Table(d, score) == BandOf(d, score)
  {
    match d
    case Anxiety => ReachedOfThree(5, 10, 15, score);
    case Depression => ReachedOfFour(5, 10, 15, 20, score);
    case Addiction => ReachedOfThree(7, 16, 25, score);
    case PTSD => assert [3][1..] == [];
  }

  function Hit(cut: int, score: int): nat {
    if cut <= score then 1 else 0
  }

  lemma ReachedOfThree(a: int, b: int, c: int, score: int)
    ensures Reached([a, b, c], score) == Hit(a, score) + Hit(b, score) + Hit(c, score)
  {
    assert [c][1..] == [];
    assert Reached([c], score) == Hit(c, score);
    assert [b, c][1..] == [c];
    assert Reached([b, c], score) == Hit(b, score) + Hit(c, score);
    assert [a, b, c][1..] == [b, c];
  }

  lemma ReachedOfFour(a: int, b: int, c: int, e: int, score: int)
    ensures Reached([a, b, c, e], score) == Hit(a, score) + Hit(b, score) + Hit(c, score) + Hit(e, score)
  {
    assert [a, b, c, e][1..] == [b, c, e];
    ReachedOfThree(b, c, e, score);
  }

  /** Band order, used to say a table never ranks a higher score milder. */
  function Rank(s: Severity): nat {
    match s
    case Minimal => 0
    case Mild => 1
    case Moderate => 2
    case ModerateOrSevere => 2
    case ModeratelySevere => 3
    case MildlySevere => 3
    case Severe => 4
  }

  lemma {:induction false} ReachedMonotone(cuts: seq<int>, s: int, t: int)
    requires s <= t
    ensures Reached(cuts, s) <= Reached(cuts, t)
  {
    if |cuts| > 0 {
      ReachedMonotone(cuts[1..], s, t);
    }
  }

  /** Bands are listed in ascending rank. */
  lemma BandsAscend(d: Disorder, i: nat, j: nat)
    requires i <= j < |Bands(d)|
    ensures Rank(Bands(d)[i]) <= Rank(Bands(d)[j])
  {
  }

  /** A higher score never earns a milder label. */
  lemma TableMonotone(d: Disorder, s: int, t: int)
    requires 0 <= s <= t
    ensures Rank(Table(d, s)) <= Rank(Table(d, t))
  {
    TableIsBanded(d, s);
    TableIsBanded(d, t);
    ReachedMonotone(Cutoffs(d), s, t);
    BandsAscend(d, Reached(Cutoffs(d), s), Reached(Cutoffs(d), t));
  }

  /** Over the scores a complete run can reach, the table takes every label of
      its scale and no other. */
  lemma TableCoversBands(d: Disorder)
    ensures (set x | 0 <= x <= MaxScore(d) :: Table(d, x)) == set i | 0 <= i < |Bands(d)| :: Bands(d)[i]
  {
    var image := set x | 0 <= x <= MaxScore(d) :: Table(d, x);
    var labels := set i | 0 <= i < |Bands(d)| :: Bands(d)[i];
    forall i | 0 <= i < |Bands(d)| ensures Bands(d)[i] in image {
      var x := if i == 0 then 0 else Cutoffs(d)[i - 1];
      assert 0 <= x <= MaxScore(d);
      assert Table(d, x) == Bands(d)[i];
    }
    forall x | 0 <= x <= MaxScore(d) ensures Table(d, x) in labels {
      TableIsBanded(d, x);
      var k := Reached(Cutoffs(d), x);
      assert Bands(d)[k] in labels;
    }
  }
}

=== FILE: stepdiag.dfy ===
/** The step-indexed diagnosis handler of src/mindaid/diagnosis.py:
    `diagnosis_chat` takes the narrative step from the request, and
    `handle_questionnaire_response` walks question lists by the session's
    step.  Its continuation guards stop one answer early; `Revision` selects
    the guards as written or corrected (see README, Findings). */
module StepDiagnosis {
  import opened Py
  import opened Domain
  import Scales
  import Q = Questionnaire

  datatype DiagSession = DiagSession(step: int, userInput: string, score: int, disorder: Option<Disorder>)

  /** The entry a user without one gets on the first request. */
  const NewSession := DiagSession(1, "", 0, None)

  datatype Request = Request(userInput: string, step: int)

  datatype Response = Response(message: Message, disorder: Option<Disorder>, severity: Option<Severity>, completed: bool)

  /** What a request ends in.  The session is the entry after the request:
      the handler mutates it in place, so an exception raised after an update
      leaves that update behind. */
  datatype Answer =
    | Replied(session: DiagSession, response: Response, write: Option<Write>)
    | ServerError(session: DiagSession)   // an exception, turned into HTTP 500
    | NoResponse(session: DiagSession)    // a request step below 1: the handler returns None

  datatype Revision = AsWritten | Corrected

  // ------------------------------------------------------------- messages

  /** The handler's replies; `Text` gives the words each one carries. */
  datatype Message =
    | TriggerPrompt
    | HistoryPrompt
    | Intro(disorder: Disorder)
    | AnxietyQuestion(item: nat)
    | PtsdQuestion(item: nat)
    | NightmarePrompt
    | NoTrauma
    | Result(disorder: Disorder, severity: Severity)
    | Generic

  const AnxietyQuestions: seq<string> := [Q.Gad2, Q.Gad3, Q.Gad4, Q.Gad5, Q.Gad6, Q.Gad7]

  const PtsdLastQuestion := "Felt guilty or unable to stop blaming yourself or others?"

  const PtsdQuestions: seq<string> := [Q.Pc2, Q.Pc3, Q.Pc4, PtsdLastQuestion]

  /** The two question lists, entry by entry. */
  const AnxietyItems: seq<Message> := [AnxietyQuestion(0), AnxietyQuestion(1), AnxietyQuestion(2), AnxietyQuestion(3), AnxietyQuestion(4), AnxietyQuestion(5)]

  const PtsdItems: seq<Message> := [PtsdQuestion(0), PtsdQuestion(1), PtsdQuestion(2), PtsdQuestion(3)]

  function Text(m: Message): string {
    match m
    case TriggerPrompt => Q.TriggerQuestion
    case HistoryPrompt => Q.HistoryQuestion
    case Intro(d) => IntroText(d)
    case AnxietyQuestion(i) => if i < |AnxietyQuestions| then AnxietyQuestions[i] else ""
    case PtsdQuestion(i) => if i < |PtsdQuestions| then PtsdQuestions[i] else ""
    case NightmarePrompt => Q.Pc1
    case NoTrauma => "PTSD requires a traumatic event. Consider consulting a counselor."
    case Result(d, sev) =>
      (if d == Anxiety then "The severity of your Anxiety Disorder is " else "The severity of your PTSD is ")
      + SeverityName(sev) + "."
    case Generic => "Diagnosis completed. Please consult a healthcare professional."
  }

  function IntroText(d: Disorder): string {
    "You have: " + DisorderName(d) + ". " +
    match d
    case Anxiety => "Now could you answer a few symptoms related questions to help diagnose the severity? Answer 0: Not at all, 1: Several days, 2: More than half the days, 3: Nearly every day. Feeling nervous, anxious, or on edge?"
    case PTSD => "Have you ever experienced a traumatic event? (yes/no)"
    case Depression => "Little interest or pleasure in doing things? (0-3 scale)"
    case Addiction => "How often do you have strong urges or cravings? (0: Never, 1: Sometimes, 2: Often, 3: Always)"
  }

  /** The handler's questions are get_response's, word for word and in the
      same order, except its last PTSD question, which is cut short.  Both
      sides are the literals transcribed into this model (diagnosis.py's
      lists and main.py's returns), so the lemma checks the two
      transcriptions against each other; their fidelity to the source text
      rests on the transcription itself. */
  lemma QuestionsMatchMain(i: nat)
    ensures i < |AnxietyQuestions| ==> Text(AnxietyQuestion(i)) == Q.Items(Anxiety)[i + 1]
    ensures i < |PtsdQuestions| - 1 ==> Text(PtsdQuestion(i)) == Q.Items(PTSD)[i + 1]
    ensures Text(NightmarePrompt) == Q.Items(PTSD)[0]
    ensures |Text(PtsdQuestion(|PtsdQuestions| - 1))| < |Q.Items(PTSD)[|PtsdQuestions|]|
  {
  }

  // ------------------------------------------------------------- severity

  /** `calculate_anxiety_severity`: the GAD-7 bands, with no lower bound on
      the mildest. */
  function CalculateAnxietySeverity(score: int): (v: Severity)
    ensures v == Minimal <==> score <= 4
    ensures v == Mild <==> 5 <= score <= 9
    ensures v == Moderate <==> 10 <= score <= 14
    ensures v == Severe <==> 15 <= score
  {
    if score <= 4 then Minimal
    else if score <= 9 then Mild
    else if score <= 14 then Moderate
    else Severe
  }

  /** The PTSD label of diagnosis.py: three or more points are
      "Moderate/Severe", anything less (negative included) "Mild". */
  function PtsdSeverity(score: int): (v: Severity)
    ensures v == ModerateOrSevere <==> 3 <= score
    ensures v == Mild <==> score < 3
  {
    if score >= 3 then ModerateOrSevere else Mild
  }

  /** On every score a run can produce the two Anxiety tables agree; they
      differ only below zero, where get_response's table falls through to
      "Severe". */
  lemma AnxietyTablesAgree(score: int)
    ensures 0 <= score ==> CalculateAnxietySeverity(score) == Scales.Table(Anxiety, score)
    ensures score < 0 ==> CalculateAnxietySeverity(score) == Minimal && Scales.Table(Anxiety, score) == Severe
  {
  }

  /** `calculate_anxiety_severity` never ranks a higher score milder. */
  lemma CalculateAnxietySeverityMonotone(s: int, t: int)
    requires s <= t
    ensures Scales.Rank(CalculateAnxietySeverity(s)) <= Scales.Rank(CalculateAnxietySeverity(t))
  {
  }

  lemma PtsdTablesAgree(score: int)
    ensures 0 <= score ==> PtsdSeverity(score) == Scales.Table(PTSD, score)
  {
  }

  // -------------------------------------------------------------- guards

  /** `step - 3 < len(questions)`, and the guard that asks every question. */
  predicate AnxietyContinues(rev: Revision, step: int) {
    match rev
    case AsWritten => step - 3 < |AnxietyItems|
    case Corrected => step - 4 < |AnxietyItems|
  }

  /** `step - 4 < len(questions)`, and the guard that asks every question. */
  predicate PtsdContinues(rev: Revision, step: int) {
    match rev
    case AsWritten => step - 4 < |PtsdItems|
    case Corrected => step - 5 < |PtsdItems|
  }

  // -------------------------------------------------------------- handler

  function AnxietyAnswer(rev: Revision, s: DiagSession, userInput: string): (a: Answer)
    // `int(user_input)` raises before anything is touched
    ensures ParseInt(userInput).None? ==> a == ServerError(s)
    ensures a.Replied? ==> ParseInt(userInput).Some?
    // a continuing answer is added and the step advances, even when the
    // question lookup then fails
    ensures ParseInt(userInput).Some? && AnxietyContinues(rev, s.step) ==>
              a.session == s.(step := s.step + 1, score := s.score + ParseInt(userInput).value)
    // the last answer writes the severity of the final score; the stored
    // score is left without it
    ensures ParseInt(userInput).Some? && !AnxietyContinues(rev, s.step) ==>
              var sev := CalculateAnxietySeverity(s.score + ParseInt(userInput).value);
              a == Replied(s.(step := -1), Response(Result(Anxiety, sev), Some(Anxiety), Some(sev), true),
                           Some(SetSeverity(sev)))
  {
    match ParseInt(userInput)
    case None => ServerError(s)
    case Some(v) =>
      var score := s.score + v;
      if AnxietyContinues(rev, s.step) then
        var next := s.(step := s.step + 1, score := score);
        match Index(AnxietyItems, s.step - 4)
        case Some(q) => Replied(next, Response(q, None, None, false), None)
        case None => ServerError(next)
      else
        var severity := CalculateAnxietySeverity(score);
        Replied(s.(step := -1),
                Response(Result(Anxiety, severity), Some(Anxiety), Some(severity), true),
                Some(SetSeverity(severity)))
  }

  function PtsdAnswer(rev: Revision, s: DiagSession, userInput: string): (a: Answer)
    // at the gate: "no" or "n" ends with Minimal, anything else opens the items
    ensures s.step == 4 && Lower(userInput) in ["no", "n"] ==>
              a == Replied(s.(step := -1), Response(NoTrauma, Some(PTSD), Some(Minimal), true), Some(SetSeverity(Minimal)))
    ensures s.step == 4 && Lower(userInput) !in ["no", "n"] ==>
              a == Replied(s.(step := 5), Response(NightmarePrompt, None, None, false), None)
    // past the gate: one point exactly for "yes" or "y"
    ensures s.step != 4 && PtsdContinues(rev, s.step) ==>
              a.session == s.(step := s.step + 1, score := s.score + (if Lower(userInput) in ["yes", "y"] then 1 else 0))
    ensures s.step != 4 && !PtsdContinues(rev, s.step) ==>
              var sev := PtsdSeverity(s.score + (if Lower(userInput) in ["yes", "y"] then 1 else 0));
              a == Replied(s.(step := -1), Response(Result(PTSD, sev), Some(PTSD), Some(sev), true),
                           Some(SetSeverity(sev)))
  {
    if s.step == 4 then
      if Lower(userInput) in ["no", "n"] then
        Replied(s.(step := -1), Response(NoTrauma, Some(PTSD), Some(Minimal), true), Some(SetSeverity(Minimal)))
      else
        Replied(s.(step := 5), Response(NightmarePrompt, None, None, false), None)
    else
      var score := s.score + (if Lower(userInput) in ["yes", "y"] then 1 else 0);
      if PtsdContinues(rev, s.step) then
        var next := s.(step := s.step + 1, score := score);
        match Index(PtsdItems, s.step - 5)
        case Some(q) => Replied(next, Response(q, None, None, false), None)
        case None => ServerError(next)
      else
        var severity := PtsdSeverity(score);
        Replied(s.(step := -1),
                Response(Result(PTSD, severity), Some(PTSD), Some(severity), true),
                Some(SetSeverity(severity)))
  }

  /** `handle_questionnaire_response`, driven by the session's own step. */
  function HandleQuestionnaire(rev: Revision, s: DiagSession, userInput: string): (a: Answer)
    ensures !a.NoResponse?
    // finishing sets the step to -1 and writes the severity; the generic
    // reply also says "completed" but touches nothing
    ensures a.Replied? && a.response.completed ==>
              (a.session == s.(step := -1) && a.write.Some? && a.write.value.SetSeverity?)
              || (a == Replied(s, Response(Generic, None, None, true), None))
    // every other reply advances the step by one and writes nothing
    ensures a.Replied? && !a.response.completed ==> a.session.step == s.step + 1 && a.write.None?
    // disorders without a handler get the generic reply
    ensures s.disorder != Some(Anxiety) && s.disorder != Some(PTSD) ==>
              a == Replied(s, Response(Generic, None, None, true), None)
  {
    match s.disorder
    case Some(Anxiety) => AnxietyAnswer(rev, s, userInput)
    case Some(PTSD) => PtsdAnswer(rev, s, userInput)
    case _ => Replied(s, Response(Generic, None, None, true), None)
  }

  /** `diagnosis_chat`: steps 1 to 3 are taken from the request, later steps
      from the session. */
  function Chat(rev: Revision, s: DiagSession, req: Request, classify: string -> Disorder): (a: Answer)
    ensures req.step == 1 ==>
              a == Replied(s.(userInput := s.userInput + req.userInput, step := 2), Response(TriggerPrompt, None, None, false), None)
    ensures req.step == 2 ==>
              a == Replied(s.(userInput := s.userInput + " " + req.userInput, step := 3), Response(HistoryPrompt, None, None, false), None)
    ensures req.step == 3 ==>
              var text := s.userInput + " " + req.userInput;
              && a.Replied? && a.session == s.(userInput := text, disorder := Some(classify(text)), step := 4)
              && a.write == Some(SetDisorder(classify(text)))
              && a.response.disorder == Some(classify(text)) && !a.response.completed
    ensures req.step < 1 ==> a == NoResponse(s)
    ensures req.step >= 4 ==> a == HandleQuestionnaire(rev, s, req.userInput)
  {
    if req.step == 1 then
      Replied(s.(userInput := s.userInput + req.userInput, step := 2), Response(TriggerPrompt, None, None, false), None)
    else if req.step == 2 then
      Replied(s.(userInput := s.userInput + " " + req.userInput, step := 3), Response(HistoryPrompt, None, None, false), None)
    else if req.step == 3 then
      var text := s.userInput + " " + req.userInput;
      var d := classify(text);
      Replied(s.(userInput := text, disorder := Some(d), step := 4), Response(Intro(d), Some(d), None, false), Some(SetDisorder(d)))
    else if req.step >= 4 then
      HandleQuestionnaire(rev, s, req.userInput)
    else
      NoResponse(s)
  }

  /** The endpoint: the entry is filed under "diagnosis_" and the user name. */
  function DiagnosisChat(rev: Revision, sessions: map<string, DiagSession>, user: Option<string>,
                         req: Request, classify: string -> Disorder): (r: (map<string, DiagSession>, Answer))
    ensures "diagnosis_" + Username(user) in r.0
    ensures r.0.Keys == sessions.Keys + {"diagnosis_" + Username(user)}
    ensures r.0["diagnosis_" + Username(user)] == r.1.session
    ensures forall k :: k in sessions && k != "diagnosis_" + Username(user) ==> r.0[k] == sessions[k]
    // a missing entry is created fresh, whatever the request's step
    ensures "diagnosis_" + Username(user) !in sessions && req.step == 1 ==> r.1.session.userInput == req.userInput
    ensures "diagnosis_" + Username(user) !in sessions && req.step == 2 ==>
              r.1.session == NewSession.(userInput := " " + req.userInput, step := 3)
    ensures "diagnosis_" + Username(user) !in sessions && req.step == 3 ==>
              r.1.session.userInput == " " + req.userInput && r.1.session.disorder == Some(classify(" " + req.userInput))
    ensures "diagnosis_" + Username(user) !in sessions && req.step >= 4 ==>
              r.1 == Replied(NewSession, Response(Generic, None, None, true), None)
    ensures "diagnosis_" + Username(user) !in sessions && req.step < 1 ==> r.1 == NoResponse(NewSession)
    // an existing entry is continued: it is the session the request is applied to
    ensures "diagnosis_" + Username(user) in sessions ==>
              r.1 == Chat(rev, sessions["diagnosis_" + Username(user)], req, classify)
    ensures "diagnosis_" + Username(user) in sessions && req.step >= 4 ==>
              r.1 == HandleQuestionnaire(rev, sessions["diagnosis_" + Username(user)], req.userInput)
  {
    var key := "diagnosis_" + Username(user);
    var s := if key in sessions then sessions[key] else NewSession;
    var a := Chat(rev, s, req, classify);
    (sessions[key := a.session], a)
  }

  /** `diagnosis_page`: a signed-in user starts over from a fresh entry;
      a visitor who is not signed in is sent to the landing page and no
      entry changes. */
  function DiagnosisPage(sessions: map<string, DiagSession>, user: Option<string>): (r: map<string, DiagSession>)
    ensures user.None? ==> r == sessions
    ensures user.Some? ==> r.Keys == sessions.Keys + {"diagnosis_" + user.value}
                           && r["diagnosis_" + user.value] == NewSession
    ensures forall k :: k in sessions && (user.None? || k != "diagnosis_" + user.value) ==> k in r && r[k] == sessions[k]
  {
    match user
    case None => sessions
    case Some(name) => sessions["diagnosis_" + name := NewSession]
  }

  /** A fresh entry walks the narrative in three requests and is then at the
      questionnaire's first step with the classified disorder. */
  lemma NarrativeReachesQuestionnaire(rev: Revision, m1: string, m2: string, m3: string, classify: string -> Disorder)
    ensures var a1 := Chat(rev, NewSession, Request(m1, 1), classify);
            var a2 := Chat(rev, a1.session, Request(m2, 2), classify);
            var a3 := Chat(rev, a2.session, Request(m3, 3), classify);
            && a3.session == DiagSession(4, m1 + " " + m2 + " " + m3, 0, Some(classify(m1 + " " + m2 + " " + m3)))
            && a3.write == Some(SetDisorder(classify(m1 + " " + m2 + " " + m3)))
  {
    assert "" + m1 == m1;
  }

  // ------------------------------------------------------- list indexing

  /** While the Anxiety guard lets the run continue from step 4 on,
      `questions[step - 4]` is a real position in the list, under either
      guard. */
  lemma AnxietyIndexInBounds(rev: Revision, s: DiagSession, userInput: string)
    requires s.disorder == Some(Anxiety) && s.step >= 4
    requires ParseInt(userInput).Some? && AnxietyContinues(rev, s.step)
    ensures 0 <= s.step - 4 < |AnxietyItems|
    ensures HandleQuestionnaire(rev, s, userInput).Replied?
    ensures HandleQuestionnaire(rev, s, userInput).response == Response(AnxietyQuestion(s.step - 4), None, None, false)
  {
    HandlesAnxiety(rev, s, userInput);
  }

  /** The same for PTSD past the gate with `questions[step - 5]`. */
  lemma PtsdIndexInBounds(rev: Revision, s: DiagSession, userInput: string)
    requires s.disorder == Some(PTSD) && s.step >= 5 && PtsdContinues(rev, s.step)
    ensures 0 <= s.step - 5 < |PtsdItems|
    ensures HandleQuestionnaire(rev, s, userInput).Replied?
    ensures HandleQuestionnaire(rev, s, userInput).response == Response(PtsdQuestion(s.step - 5), None, None, false)
  {
    HandlesPtsd(rev, s, userInput);
  }

  /** Once a PTSD diagnosis has finished (step -1), another request with a
      step of 4 or more looks up `questions[-6]`: the step and score are
      updated, then the lookup raises. */
  lemma PtsdReentryFails(rev: Revision, s: DiagSession, userInput: string)
    requires s.disorder == Some(PTSD) && s.step == -1
    ensures HandleQuestionnaire(rev, s, userInput).ServerError?
    ensures HandleQuestionnaire(rev, s, userInput).session.step == 0
  {
  }

  /** After a finished Anxiety diagnosis, `questions[-5]` is the second
      question: the questionnaire silently restarts part-way. */
  lemma AnxietyReentryRestarts(rev: Revision, s: DiagSession, userInput: string)
    requires s.disorder == Some(Anxiety) && s.step == -1 && ParseInt(userInput).Some?
    ensures HandleQuestionnaire(rev, s, userInput) ==
              Replied(s.(step := 0, score := s.score + ParseInt(userInput).value), Response(AnxietyQuestion(1), None, None, false), None)
  {
  }

  lemma HandlesAnxiety(rev: Revision, s: DiagSession, userInput: string)
    requires s.disorder == Some(Anxiety)
    ensures HandleQuestionnaire(rev, s, userInput) == AnxietyAnswer(rev, s, userInput)
  {
  }

  lemma HandlesPtsd(rev: Revision, s: DiagSession, userInput: string)
    requires s.disorder == Some(PTSD)
    ensures HandleQuestionnaire(rev, s, userInput) == PtsdAnswer(rev, s, userInput)
  {
  }

  // ------------------------------------------ against get_response (findings)

  /** One integer answer at a questionnaire step: the run moves on with
      the answer added, or, at the last step, finishes with the severity of
      the final score. */
  lemma AnxietyAnswerParsed(rev: Revision, s: DiagSession, userInput: string)
    requires s.disorder == Some(Anxiety) && 4 <= s.step <= AnxietyLastStep(rev)
    requires ParseInt(userInput).Some?
    ensures var a := HandleQuestionnaire(rev, s, userInput);
            var score := s.score + ParseInt(userInput).value;
            && a.Replied?
            && (a.response.completed <==> s.step == AnxietyLastStep(rev))
            && (!a.response.completed ==> a.session == s.(step := s.step + 1, score := score) && a.write.None?)
            && (a.response.completed ==> a.write == Some(SetSeverity(CalculateAnxietySeverity(score)))
                                         && a.response.severity == Some(CalculateAnxietySeverity(score)))
  {
    HandlesAnxiety(rev, s, userInput);
  }

  lemma PtsdAnswerParsed(rev: Revision, s: DiagSession, userInput: string)
    requires s.disorder == Some(PTSD) && 5 <= s.step <= PtsdLastStep(rev)
    ensures var a := HandleQuestionnaire(rev, s, userInput);
            var score := s.score + (if Lower(userInput) in ["yes", "y"] then 1 else 0);
            && a.Replied?
            && (a.response.completed <==> s.step == PtsdLastStep(rev))
            && (!a.response.completed ==> a.session == s.(step := s.step + 1, score := score) && a.write.None?)
            && (a.response.completed ==> a.write == Some(SetSeverity(PtsdSeverity(score)))
                                         && a.response.severity == Some(PtsdSeverity(score)))
  {
    HandlesPtsd(rev, s, userInput);
  }

  /** The step whose answer completes each questionnaire: as written one
      step before get_response's last step, corrected equal to it. */
  function AnxietyLastStep(rev: Revision): (t: int)
    ensures rev == Corrected ==> t == Q.LastStep(Anxiety)
    ensures rev == AsWritten ==> t == Q.LastStep(Anxiety) - 1
  {
    if rev == AsWritten then 9 else 10
  }

  function PtsdLastStep(rev: Revision): (t: int)
    ensures rev == Corrected ==> t == Q.LastStep(PTSD)
    ensures rev == AsWritten ==> t == Q.LastStep(PTSD) - 1
  {
    if rev == AsWritten then 8 else 9
  }

  /** Feeds answers to the handler while it keeps asking questions; the
      number is the position of the answer that produced the final answer. */
  function Feed(rev: Revision, s: DiagSession, inputs: seq<string>): (r: (Answer, nat))
    requires |inputs| > 0
    ensures r.1 < |inputs|
    ensures r.1 == 0 ==> r.0 == HandleQuestionnaire(rev, s, inputs[0])
    // it stops early only on an answer that does not ask another question
    ensures r.1 < |inputs| - 1 ==> !(r.0.Replied? && !r.0.response.completed)
    ensures r.1 > 0 ==> HandleQuestionnaire(rev, s, inputs[0]).Replied? && !HandleQuestionnaire(rev, s, inputs[0]).response.completed
  {
    FeedAfter(rev, HandleQuestionnaire(rev, s, inputs[0]), inputs[1..])
  }

  /** Feeding the remaining answers once the handler has given `a`. */
  function FeedAfter(rev: Revision, a: Answer, rest: seq<string>): (r: (Answer, nat))
    ensures r.1 <= |rest|
    ensures r.1 == 0 ==> r.0 == a
    ensures r.1 < |rest| ==> !(r.0.Replied? && !r.0.response.completed)
    ensures r.1 > 0 ==> a.Replied? && !a.response.completed
    decreases |rest|
  {
    if |rest| == 0 || !a.Replied? || a.response.completed then (a, 0)
    else
      var r := FeedAfter(rev, HandleQuestionnaire(rev, a.session, rest[0]), rest[1..]);
      (r.0, r.1 + 1)
  }

  /** A first answer that asks another question passes the rest of the
      answers on, from the session it reached, and the run ends where the
      rest of it ends. */
  lemma FeedContinues(rev: Revision, s: DiagSession, inputs: seq<string>)
    requires |inputs| > 1
    requires HandleQuestionnaire(rev, s, inputs[0]).Replied? && !HandleQuestionnaire(rev, s, inputs[0]).response.completed
    ensures var rest := Feed(rev, HandleQuestionnaire(rev, s, inputs[0]).session, inputs[1..]);
            Feed(rev, s, inputs) == (rest.0, rest.1 + 1)
  {
    FeedAfterContinues(rev, HandleQuestionnaire(rev, s, inputs[0]), inputs[1..]);
  }

  /** After an answer that asks another question, feeding the rest is
      feeding it from the session that answer reached. */
  lemma FeedAfterContinues(rev: Revision, a: Answer, rest: seq<string>)
    requires |rest| > 0 && a.Replied? && !a.response.completed
    ensures var r := Feed(rev, a.session, rest);
            FeedAfter(rev, a, rest) == (r.0, r.1 + 1)
  {
    var b := HandleQuestionnaire(rev, a.session, rest[0]);
    var r := FeedAfter(rev, b, rest[1..]);
    assert Feed(rev, a.session, rest) == r;
    assert FeedAfter(rev, a, rest) == (r.0, r.1 + 1);
  }

  /** An Anxiety run fed integer answers from any step of the questionnaire
      completes exactly on the answer given at the last step. */
  lemma {:induction false} AnxietyFeedLength(rev: Revision, s: DiagSession, inputs: seq<string>)
    requires s.disorder == Some(Anxiety) && 4 <= s.step <= AnxietyLastStep(rev)
    requires |inputs| > AnxietyLastStep(rev) - s.step
    requires forall i :: 0 <= i < |inputs| ==> ParseInt(inputs[i]).Some?
    ensures Feed(rev, s, inputs).0.Replied? && Feed(rev, s, inputs).0.response.completed
    ensures Feed(rev, s, inputs).1 == AnxietyLastStep(rev) - s.step
    decreases |inputs|
  {
    assert ParseInt(inputs[0]).Some?;
    HandlesAnxiety(rev, s, inputs[0]);
    var a := HandleQuestionnaire(rev, s, inputs[0]);
    if s.step < AnxietyLastStep(rev) {
      AnxietyIndexInBounds(rev, s, inputs[0]);
      assert a.session.step == s.step + 1 && a.session.disorder == s.disorder;
      assert forall i :: 0 <= i < |inputs[1..]| ==> ParseInt(inputs[1..][i]).Some? by {
        forall i | 0 <= i < |inputs[1..]| ensures ParseInt(inputs[1..][i]).Some? {
          assert inputs[1..][i] == inputs[i + 1];
        }
      }
      AnxietyFeedLength(rev, a.session, inputs[1..]);
    }
  }

  /** The same for PTSD items: from the first item, any answers complete
      the run on the one given at the last step. */
  lemma {:induction false} PtsdFeedLength(rev: Revision, s: DiagSession, inputs: seq<string>)
    requires s.disorder == Some(PTSD) && 5 <= s.step <= PtsdLastStep(rev)
    requires |inputs| > PtsdLastStep(rev) - s.step
    ensures Feed(rev, s, inputs).0.Replied? && Feed(rev, s, inputs).0.response.completed
    ensures Feed(rev, s, inputs).1 == PtsdLastStep(rev) - s.step
    decreases |inputs|
  {
    HandlesPtsd(rev, s, inputs[0]);
    var a := HandleQuestionnaire(rev, s, inputs[0]);
    if s.step < PtsdLastStep(rev) {
      PtsdIndexInBounds(rev, s, inputs[0]);
      assert a.session.step == s.step + 1 && a.session.disorder == s.disorder;
      PtsdFeedLength(rev, a.session, inputs[1..]);
    }
  }

  /** How many answers a questionnaire takes from its first item: as written
      one fewer than get_response asks, corrected exactly as many. */
  lemma AnswersTaken(rev: Revision, s: DiagSession, inputs: seq<string>)
    requires 0 < |inputs|
    ensures s.disorder == Some(Anxiety) && s.step == 4 && |inputs| >= Scales.ItemCount(Anxiety)
            && (forall i :: 0 <= i < |inputs| ==> ParseInt(inputs[i]).Some?) ==>
              && Feed(rev, s, inputs).0.Replied? && Feed(rev, s, inputs).0.response.completed
              && Feed(rev, s, inputs).1 + 1 == (if rev == Corrected then Scales.ItemCount(Anxiety) else Scales.ItemCount(Anxiety) - 1)
    ensures s.disorder == Some(PTSD) && s.step == 5 && |inputs| >= Scales.ItemCount(PTSD) ==>
              && Feed(rev, s, inputs).0.Replied? && Feed(rev, s, inputs).0.response.completed
              && Feed(rev, s, inputs).1 + 1 == (if rev == Corrected then Scales.ItemCount(PTSD) else Scales.ItemCount(PTSD) - 1)
  {
    if s.disorder == Some(Anxiety) && s.step == 4 && |inputs| >= Scales.ItemCount(Anxiety)
       && (forall i :: 0 <= i < |inputs| ==> ParseInt(inputs[i]).Some?) {
      AnxietyFeedLength(rev, s, inputs);
    }
    if s.disorder == Some(PTSD) && s.step == 5 && |inputs| >= Scales.ItemCount(PTSD) {
      PtsdFeedLength(rev, s, inputs);
    }
  }

  /** As written, an Anxiety run from step 4 completes on its sixth answer
      (at step 9), so `questions[5]` is never asked and the seventh GAD-7
      item is never scored; get_response, at the same step with the same
      answer, moves on to its last item instead of finishing. */
  lemma AsWrittenAnxietyStopsEarly(s: DiagSession, input: string, m: Q.Session, msg: string)
    requires s.disorder == Some(Anxiety) && s.step == 9 && m.total == 9
    requires msg in Q.LikertAnswers && ParseInt(input) == Some(Q.LikertValue(msg) as int)
    ensures HandleQuestionnaire(AsWritten, s, input).Replied?
    ensures HandleQuestionnaire(AsWritten, s, input).response.completed
    ensures Q.LikertTurn(m, Anxiety, msg).session.total == 10
    ensures Q.LikertTurn(m, Anxiety, msg).write.None?
  {
    AnxietyAnswerParsed(AsWritten, s, input);
  }

  /** As written, a PTSD run completes on its fourth item (at step 8), so
      `questions[3]` is never asked; get_response goes on to a fifth item. */
  lemma AsWrittenPtsdStopsEarly(s: DiagSession, m: Q.Session, msg: string)
    requires s.disorder == Some(PTSD) && s.step == 8 && m.total == 8
    requires Lower(msg) == "yes" || Lower(msg) == "no"
    ensures HandleQuestionnaire(AsWritten, s, msg).Replied?
    ensures HandleQuestionnaire(AsWritten, s, msg).response.completed
    ensures Q.PtsdTurn(m, msg).session.total == 9
    ensures Q.PtsdTurn(m, msg).write.None?
  {
    PtsdAnswerParsed(AsWritten, s, msg);
  }

  /** get_response's last Likert answer writes the table's severity. */
  lemma MainLikertFinish(m: Q.Session, d: Disorder, msg: string)
    requires d != PTSD && msg in Q.LikertAnswers && m.total == Q.LastStep(d)
    ensures Q.LikertTurn(m, d, msg).session.total == -1
    ensures Q.LikertTurn(m, d, msg).session.userScore == m.userScore + Q.LikertValue(msg)
    ensures Q.LikertTurn(m, d, msg).write == Some(SetSeverity(Scales.Table(d, m.userScore + Q.LikertValue(msg))))
  {
  }

  /** With the corrected guard, an integer answer at any Anxiety step
      before the last does what get_response does with a Likert answer of
      the same value at the same step: both move to the next step with the
      same score. */
  lemma CorrectedAnxietyContinuesAsMain(s: DiagSession, input: string, m: Q.Session, msg: string)
    requires s.disorder == Some(Anxiety)
    requires s.step == m.total && 4 <= s.step < Q.LastStep(Anxiety)
    requires s.score == m.userScore
    requires msg in Q.LikertAnswers && ParseInt(input) == Some(Q.LikertValue(msg) as int)
    ensures var a := HandleQuestionnaire(Corrected, s, input);
            var o := Q.LikertTurn(m, Anxiety, msg);
            && a.Replied? && !a.response.completed && o.session.total != -1
            && a.session.step == o.session.total && a.session.score == o.session.userScore
  {
    CorrectedAnxietyContinues(s, input, Q.LikertValue(msg));
    MainLikertContinue(m, Anxiety, msg);
  }

  /** With the corrected guard, an answer worth `v` before the last Anxiety
      step moves to the next step with `v` added. */
  lemma CorrectedAnxietyContinues(s: DiagSession, input: string, v: nat)
    requires s.disorder == Some(Anxiety) && 4 <= s.step < Q.LastStep(Anxiety)
    requires ParseInt(input) == Some(v as int)
    ensures var a := HandleQuestionnaire(Corrected, s, input);
            && a.Replied? && !a.response.completed
            && a.session.step == s.step + 1 && a.session.score == s.score + v
  {
    AnxietyAnswerParsed(Corrected, s, input);
  }

  /** get_response's Likert answer before the last item moves to the next
      step with its value added. */
  lemma MainLikertContinue(m: Q.Session, d: Disorder, msg: string)
    requires d != PTSD && msg in Q.LikertAnswers && 4 <= m.total < Q.LastStep(d)
    ensures Q.LikertTurn(m, d, msg).session.total == m.total + 1
    ensures Q.LikertTurn(m, d, msg).session.userScore == m.userScore + Q.LikertValue(msg)
  {
  }

  /** … and at the last step both finish, writing the same severity. */
  lemma CorrectedAnxietyFinishesAsMain(s: DiagSession, input: string, m: Q.Session, msg: string)
    requires s.disorder == Some(Anxiety)
    requires s.step == m.total == Q.LastStep(Anxiety)
    requires s.score == m.userScore && 0 <= s.score
    requires msg in Q.LikertAnswers && ParseInt(input) == Some(Q.LikertValue(msg) as int)
    ensures var a := HandleQuestionnaire(Corrected, s, input);
            var o := Q.LikertTurn(m, Anxiety, msg);
            && a.Replied? && a.response.completed && o.session.total == -1
            && a.write == o.write && a.response.severity == Some(Scales.Table(Anxiety, o.session.userScore))
  {
    CorrectedAnxietyFinishes(s, input, Q.LikertValue(msg));
    MainLikertFinish(m, Anxiety, msg);
  }

  /** With the corrected guard, an answer worth `v` at the last Anxiety step
      finishes the run with the table's severity. */
  lemma CorrectedAnxietyFinishes(s: DiagSession, input: string, v: nat)
    requires s.disorder == Some(Anxiety) && s.step == Q.LastStep(Anxiety) && 0 <= s.score
    requires ParseInt(input) == Some(v as int)
    ensures var a := HandleQuestionnaire(Corrected, s, input);
            && a.Replied? && a.response.completed
            && a.write == Some(SetSeverity(Scales.Table(Anxiety, s.score + v)))
            && a.response.severity == Some(Scales.Table(Anxiety, s.score + v))
  {
    AnxietyAnswerParsed(Corrected, s, input);
    AnxietyTablesAgree(s.score + v);
  }

  /** With the corrected guard, one yes/no answer to a PTSD item does what
      get_response does with it. */
  lemma CorrectedPtsdMatchesMain(s: DiagSession, m: Q.Session, msg: string)
    requires s.disorder == Some(PTSD)
    requires s.step == m.total && 5 <= s.step <= Q.LastStep(PTSD)
    requires s.score == m.userScore && 0 <= s.score
    requires Lower(msg) == "yes" || Lower(msg) == "no"
    ensures var a := HandleQuestionnaire(Corrected, s, msg);
            var o := Q.PtsdTurn(m, msg);
            && a.Replied?
            && (a.response.completed <==> o.session.total == -1)
            && (!a.response.completed ==> a.session.step == o.session.total && a.session.score == o.session.userScore)
            && (a.response.completed ==> a.write == o.write && a.response.severity == Some(Scales.Table(PTSD, o.session.userScore)))
  {
    PtsdAnswerParsed(Corrected, s, msg);
    PtsdTablesAgree(s.score + (if Lower(msg) == "yes" then 1 else 0));
  }
}
